=== FILE: README.md ===
# Car-wash service station: a Dafny model

The car-wash simulator is a bounded producer/consumer built on four semaphores. Car threads
wait for a free place in the waiting area (`empty`) and append their tag to a shared queue under
`mutex`. Each car then signals `full`. Pump threads take the signal and remove the head of the
queue under `mutex`. A pump then waits for a service bay (`pumps`) and serves the car. After
service it returns the bay, and only then returns the waiting place. `ServiceStation` creates
the semaphores, starts the pumps and the cars, and stops and resets the simulation.

The model has two parts.

- **The hand-off protocol** (`Threads`, `Protocol`). Every car and pump is a program counter
  over its `run()` method. Every acquire, every release and every mutex-protected section is
  one atomic step. `Protocol.Next(p, t, m)` is one step of thread `t`, and any enabled step of
  any thread may come next.
  - A step is one of four moves: an ordinary advance, an `InterruptedException` at a blocking
    call, another exception at a notification, or the cws pump leaving its
    `while (!isInterrupted())` loop.
  - One parameterised model covers the three pump classes and the two car classes. The
    variants share every acquire and release and differ in three ways:
    - the notices they emit: the cws classes report to observers, the default-package classes
      print, and the gui pump logs through its controller;
    - the exceptions they catch: the console car and pump catch every exception and print a
      stack trace. The cws car, the cws pump and the gui pump catch `InterruptedException` with
      a notice of their own. Of these three, only the cws car also catches other exceptions;
      in the cws and gui pumps any other exception leaves `run()` unreported;
    - the loop: only the cws pump tests `isInterrupted()` at the top of its loop and can leave
      it without a notice. The other two pumps loop with `while (true)`.
  - Events go to an event log (`Events`). `Events.Text` gives each event's message text.
- **The station lifecycle** (`Station`, `Simulation`). The station is an immutable value, and
  each public method is a function from station to station.
  - `Simulation.Apply` interleaves lifecycle calls with thread steps.
  - `reset()` is modelled twice: once as written (`Station.Reset`), and once as evidently
    intended (`Station.ResetJoined`), which stops the threads, joins them, and restores the
    station the constructor built. The rest of the model uses the joined reset.

What is proved:

- **The accounting invariant** (`Accounting`). Every permit of every semaphore is either
  available, or held by exactly one thread or queue entry:
  - mutex: `mutex + holders = 1`;
  - bays: `pumps + bays in use = numPumps`;
  - waiting places: `empty + places held outside the queue + |queue| = waitingAreaSize`;
  - signals: `full + unsignalled or claimed entries = |queue|`.
- **FIFO and exactly-once service** (`Ordering`). The queue is exactly what was appended minus
  what was removed, in order. Every tag is appended at most once. No car is held by two pumps.
- **Notice order** (`Notices`). Each car's "entered" notice follows its "arrived" notice. Each
  "begins service" notice follows the matching "login", and each "finishes service" follows
  the matching "begins service".
- **Consequences** (`Invariant`, `Steps`):
  - the queue never exceeds the waiting area;
  - `full` never exceeds the queue;
  - while the invariant holds, that is with `reset()` taken as the joined reset, the pump's
    "queue empty, retry" branch is unreachable. The reset as written makes it reachable (see
    Findings);
  - a mutex holder can always leave its critical section;
  - each permit count rises only at its own release.
- **Shutdown** (`Shutdown`). An interrupted thread can always move, and some schedule of its
  own moves ends it within `Rank` steps. Whatever the scheduler and the other threads do, it
  takes at most `Budget` steps of its own before it ends (at most 9 for a pump, 6 for a car).
- **The whole station** (`Simulation`). The invariant holds along any run of lifecycle calls and
  thread steps. Car numbers are unique and increasing. A joined reset can always be brought to
  completion.

Where the code does less than its names and comments suggest, the model follows the code:
- `startSimulation()` on a running station and `addCar()` on a stopped one raise no error. They
  only log a message.
- A pump returns the waiting place only after service (`empty.release()` after
  `pumps.release()`), not when it removes the car from the queue.
- The "started" message reports `empty.availablePermits()`. That equals the configured capacity
  only when nothing is waiting (`Simulation.StartAnnouncement`).
- `getWaitingAreaSize()`, commented as the total capacity, equals it only when no car or pump
  holds a waiting place outside the queue, and no signal is pending: no car between its append
  and `full.release()`, and no pump between `full.acquire()` and removing a car
  (`Simulation.Counters`).
- A car interrupted in `mutex.acquire()` keeps the waiting place it took. So does every thread
  that dies while holding permits.
- `reset()` neither waits for the threads nor restarts the car counter, and it zeroes
  `numPumps` (see Findings).

## Model

| member | source | states |
|---|---|---|
| Station.Create | src/main/java/simulator/cws/ServiceStation.java:28-51 | construction fails exactly when `waitingAreaSize < 0`, `numPumps <= 0` or the callback is null, reporting them in that order. Otherwise the station is stopped, the counter is 0, there are no threads, the queue is empty, and the permits are mutex 1, empty `waitingAreaSize`, full 0, pumps `numPumps` |
| Station.Spawn | src/main/java/simulator/cws/ServiceStation.java:65-69 | after k iterations of the start loop, the pool has gained pumps numbered 1..k at the next k positions, and the pump list has gained exactly those positions. Earlier threads, earlier list entries and everything else are untouched |
| Station.StartSimulation | src/main/java/simulator/cws/ServiceStation.java:54-70 | on a running station only "already running" is logged. Otherwise the station runs, announces the available waiting permits and `numPumps`, and adds exactly `numPumps` idle pumps numbered 1..numPumps. The queue, the permits, the cars and the counter are untouched |
| Station.AddCar | src/main/java/simulator/cws/ServiceStation.java:73-86 | on a stopped station only "please start" is logged. Otherwise the counter rises by exactly one, and exactly one new car is created and listed. Its number is the new counter value, and it is announced as "arrived". Nothing else changes |
| Station.InterruptAll | src/main/java/simulator/cws/ServiceStation.java:96-108 | exactly the listed threads get their interrupt flag set. All other threads are unchanged |
| Station.StopSimulation | src/main/java/simulator/cws/ServiceStation.java:89-111 | on a stopped station only "not running" is logged. Otherwise the station stops, every listed car and pump is interrupted, and "stopped" is logged. The queue and all permit counts are untouched |
| Station.Reset | src/main/java/simulator/cws/ServiceStation.java:117-130 | reset as written: the station stops, the queue and both lists are emptied, and the permits become 1 / `waitingAreaSize` / 0 / the old `numPumps`. `numPumps` becomes 0, the counter is kept, and the threads stay in the pool, interrupted |
| Station.ResetJoined | src/main/java/simulator/cws/ServiceStation.java:117-130 | reset with join: it completes exactly when every thread has ended, and then leaves the constructor's station for the same sizes, with the counter at 0. A call that would wait is refused whole, its stop included, so a running station with live threads needs a separate stop first |
| Protocol.InitPool | src/main/java/simulator/cws/ServiceStation.java:39-43 | definition, no contract of its own: the constructor's empty queue and semaphores (mutex 1, empty = waiting area, full 0, pumps = numPumps), with no thread yet. Invariant.InitInv proves the protocol invariant of it |
| Protocol.CarStep | src/main/java/simulator/cws/Car.java:42-62 | definition, no contract of its own: one atomic step of a car's `run()`, for the cws car and the console car (Car.java:18-35). It covers each acquire, the append, each release, an interrupt at either acquire and an exception at a notification. Its steps are characterised by Accounting.CarBalanced, Ordering.StepQueue, Notices.ReportStep and Invariant.StepInv |
| Protocol.PumpStep | src/main/java/simulator/cws/Pump.java:61-94 | definition, no contract of its own: one atomic step of a pump's loop, for the cws pump, the console pump (Pump.java:22-53) and the gui pump (gui Pump.java:24-55). It includes the empty-queue retry, the exception points, the service sleep that throws when the flag is set, and the cws pump's exit on `isInterrupted()`. Its steps are characterised by Accounting.PumpBalanced, Ordering.StepQueue, Notices.ReportStep, Steps.ReleaseSites and Invariant.StepInv |
| Protocol.Next | src/main/java/simulator/cws/ServiceStation.java:65-69 | definition, no contract of its own: the scheduler runs one enabled step of one started thread, a car step or a pump step. Protocol.StepFrame states what any step leaves alone, and Invariant.StepInv that it keeps the invariant |
| Station.WaitingAreaSize | src/main/java/simulator/cws/ServiceStation.java:157-159 | definition, no contract of its own: `empty` plus `full` available permits. Simulation.Counters relates it to the configured capacity |
| Station.TotalWaiting | src/main/java/simulator/cws/ServiceStation.java:161-163 | definition, no contract of its own: the available `full` permits. Simulation.Counters bounds it by the queue length |
| Simulation.Counters | src/main/java/simulator/cws/ServiceStation.java:157-163 | `getTotalWaiting()` is at most the queue length, which is at most `waitingAreaSize`. `getWaitingAreaSize() <= waitingAreaSize`, with equality exactly when no thread holds a waiting place or signal outside the queue |
| Simulation.StartAnnouncement | src/main/java/simulator/cws/ServiceStation.java:61-62 | the capacity announced at start is the waiting area minus the queued cars and the places held outside the queue. It equals the configured size exactly when both are zero |
| Simulation.AddCarFresh | src/main/java/simulator/cws/ServiceStation.java:79-85 | the new car's number, and so its tag, is larger than, and different from, that of every car already in the station |
| Simulation.TagsUnique | src/main/java/simulator/cws/Car.java:23 | no two cars of a station share a tag |
| Simulation.CreateInv | src/main/java/simulator/cws/ServiceStation.java:39-50 | a newly constructed station satisfies the station invariant |
| Simulation.StartInv | src/main/java/simulator/cws/ServiceStation.java:54-70 | starting preserves the station invariant. New pumps hold nothing and are listed |
| Simulation.AddCarInv | src/main/java/simulator/cws/ServiceStation.java:73-86 | adding a car preserves the station invariant. The new car is listed and carries a fresh number |
| Simulation.StopInv | src/main/java/simulator/cws/ServiceStation.java:89-111 | stopping preserves the station invariant, and leaves every thread interrupted |
| Simulation.ResetInv | src/main/java/simulator/cws/ServiceStation.java:117-130 | a joined reset re-establishes the station invariant |
| Simulation.StepStationInv | src/main/java/simulator/cws/Pump.java:61-94 | any step of any car or pump preserves the station invariant |
| Simulation.ApplyInv | src/main/java/simulator/cws/ServiceStation.java:54-130 | with `reset()` taken as `Station.ResetJoined`, every lifecycle call and every thread step preserves the station invariant |
| Simulation.PerformInv | src/main/java/simulator/cws/ServiceStation.java:54-130 | with `reset()` taken as `Station.ResetJoined`, the station invariant holds after any sequence of calls and thread steps |
| Simulation.ShutdownAll | src/main/java/simulator/cws/ServiceStation.java:96-108 | once every thread is interrupted, some schedule brings all of them to the end of `run()` |
| Simulation.ResetCompletes | src/main/java/simulator/cws/ServiceStation.java:117-130 | from any reachable station, stopping, letting the threads finish and a joined reset succeed without starting or adding anything, and end in the constructor's station |
| Protocol.StepFrame | src/main/java/simulator/cws/Car.java:43-62 | a step changes only the stepping thread, and only its position in `run()`. Its number, variant and interrupt flag stay, and the log only grows |
| Accounting.CarBalanced | src/main/java/simulator/cws/Car.java:45-54 | each car step changes each permit count only by what the car takes or gives up, or turns the car's held waiting place into a queue entry. That interrupt and fault steps move no permit is stated by Steps.InterruptKeepsHoldings and Steps.FaultReturnsNothing |
| Accounting.PumpBalanced | src/main/java/simulator/cws/Pump.java:64-88 | each pump step except the empty-queue retry changes each permit count only by what the pump takes or gives up, or turns a queue entry into a held car. The retry, which drops a signal, is excluded and shown unreachable by Invariant.RetryUnreachable. That interrupt and fault steps move no permit is stated by Steps.InterruptKeepsHoldings and Steps.FaultReturnsNothing |
| Accounting.AccountingStep | src/main/java/simulator/cws/Pump.java:66-88 | every step preserves the four permit identities: mutex, bays, waiting places and signals |
| Ordering.StepQueue | src/main/java/simulator/cws/Pump.java:67-78 | a step leaves the queue alone, or a car that has not appended yet appends its own tag once, or a pump holding no car removes the head and now holds it |
| Ordering.OrderStep | src/main/java/simulator/cws/Car.java:48-53 | every step keeps the queue equal to "appended minus removed" in order, keeps the appended tags distinct, and keeps entered and login notices in queue order. Car numbers stay unique, and no car is held twice |
| Notices.ReportStep | src/main/java/simulator/cws/Pump.java:75-85 | every step keeps entered-after-arrived, begins-after-login and finishes-after-begins for the same pump and car |
| Invariant.InitInv | src/main/java/simulator/cws/ServiceStation.java:39-43 | the initial queue and permits satisfy the protocol invariant |
| Invariant.StepInv | src/main/java/simulator/cws/Pump.java:61-94 | every enabled step preserves the protocol invariant |
| Invariant.RunInv | src/main/java/simulator/cws/Pump.java:61-94 | every schedule of cars and pumps of every variant (with the cws car at Car.java:42-62 and the console and gui classes alike), whatever the interleaving, preserves the protocol invariant |
| Invariant.QueueBounded | src/main/java/simulator/cws/Car.java:47-54 | the queue length is at most `waitingAreaSize`, `full` is at most the queue length, `mutex <= 1` and `pumps <= numPumps` |
| Invariant.RetryUnreachable | src/main/java/simulator/cws/Pump.java:69-73 | under the protocol invariant, that is with the joined reset, a pump holding the mutex after `full.acquire()` always finds the queue non-empty |
| Invariant.ExactlyOnceFifo | src/main/java/simulator/cws/Pump.java:75-76 | removed tags are a prefix of the appended ones, and no tag is removed twice. Login notices name distinct cars, in append order, and so do entered notices |
| Invariant.NoCarTwice | src/main/java/simulator/cws/Pump.java:75 | two pumps never hold the same car, and a held car is no longer queued |
| Invariant.WaitingAreaGap | src/main/java/simulator/cws/Pump.java:87-88 | `empty + full` plus the places and signals held outside the queue is exactly the waiting area |
| Invariant.MutexHolderProceeds | src/main/java/simulator/cws/Pump.java:67-79 | a mutex holder holds it alone. It is dead or can release it without blocking, so the mutex is never held across the bay wait or the service |
| Invariant.MutexHeld | src/main/java/simulator/cws/Pump.java:67 | when no mutex permit is free, some thread holds it |
| Invariant.JoinIdle | src/main/java/simulator/cws/ServiceStation.java:83-85 | a thread that holds nothing and has a fresh number can join without breaking the invariant |
| Invariant.ReflagInv | src/main/java/simulator/cws/ServiceStation.java:97-108 | setting interrupt flags breaks nothing |
| Steps.ReleaseSites | src/main/java/simulator/cws/Pump.java:87-88 | `empty` rises only when a pump returns the waiting place after the bay. `pumps` rises only when a pump returns the bay after service, `full` only when a car signals after its append, and `mutex` only when its live holder leaves |
| Steps.InterruptKeepsHoldings | src/main/java/simulator/cws/Pump.java:90-93 | an interrupt ends the thread where it was blocked, with its shutdown or leaving notice. No permit is returned, and the queue is untouched |
| Steps.FaultReturnsNothing | src/main/java/simulator/cws/Car.java:59-61 | any other exception ends the thread for good without returning a permit. The log gains only that variant's error notice: "encountered an error" for a cws car, a stack trace for a console thread, and nothing for a cws pump, whose exception escapes run |
| Steps.BayFreeFollowsFinish | src/main/java/Pump.java:43-44 | a step only appends to the log. "Bay free" appears only in the console and gui variants, directly after the same pump's finish message for the car it was servicing |
| Shutdown.ShutdownProgress | src/main/java/simulator/cws/Pump.java:64 | a live interrupted thread always has an enabled move, and the move brings it closer to the end of `run()` |
| Shutdown.ShutdownTerminates | src/main/java/simulator/cws/Car.java:42-62 | an interrupted car or pump of any variant (the pump loops at cws Pump.java:61-94) can end: some schedule of at most `Rank` of its own moves, with no other thread moving, takes it to the end of `run()` |
| Shutdown.FlaggedStepLowersBudget | src/main/java/simulator/cws/Pump.java:64-93 | in a reachable pool, every move an interrupted thread can take lowers its budget. The service sleep always throws, and the pump's empty-queue retry cannot happen |
| Shutdown.FlaggedStepsBounded | src/main/java/simulator/cws/Pump.java:61-94 | along any schedule from a reachable pool, however the threads interleave, an interrupted thread keeps its flag and takes at most `Budget` steps of its own. Once it has taken that many, it has ended |
| Events.DecimalInjective | src/main/java/simulator/cws/ServiceStation.java:80 | distinct car numbers render to distinct decimal strings |
| Events.CarTagInjective | src/main/java/simulator/cws/Car.java:23 | two cars share a tag exactly when they share a number |
| Events.Text | src/main/java/Pump.java:35-44 | every message begins with the tag of its car or its pump |
| Findings.ResetLosesPumps | src/main/java/simulator/cws/ServiceStation.java:124-129 | as written: after a reset, a restart creates no pump. After a second reset, the bay semaphore has no permits |
| Findings.RestartAfterReset | src/main/java/simulator/cws/ServiceStation.java:117-130 | a joined reset yields the constructor's station, apart from the logs. A restart then creates pumps 1..numPumps, and the next car is C1 |
| Findings.UnjoinedResetOverfills | src/main/java/simulator/cws/ServiceStation.java:117-124 | as written: in a concrete run, a pump's late `empty.release()` after reset leaves two free places in a waiting area of one |
| Findings.JoinedResetKeepsCapacity | src/main/java/simulator/cws/ServiceStation.java:157-158 | with the joined reset, no run ever reports more free waiting places than the waiting area has |
| Findings.ResetKeepsCounter | src/main/java/simulator/cws/ServiceStation.java:79-81 | as written: the first car after a reset is announced as C2, not C1 |
| Findings.ResetRacesRetry | src/main/java/simulator/cws/ServiceStation.java:117-121 | as written: a reset while a pump holds the mutex before its empty-queue test sends the pump into the retry branch, and its release leaves two mutex permits |
| Findings.JoinedResetKeepsMutex | src/main/java/simulator/cws/Pump.java:67-73 | with the joined reset, along every run from the constructor, the mutex never has more than one permit, and a pump at the empty-queue test always finds a car |

## Left out

- Station.ResetJoined: the wait inside a joined reset is not a station state. A reset that
  would still have to wait is refused as a whole, including the stop it began, so the model
  completes a reset on a running station as a stop, the threads' own steps, then the reset.
- Thread scheduling, blocking and interrupt delivery are not modelled as such. They become a
  free choice among the enabled atomic steps, and an interrupt is a terminal step.
- The `Semaphore` class is not part of this model. Its `acquire()` is a step enabled when
  permits are positive. Whether an acquire with the interrupt flag already set throws at once
  is left open: both outcomes are steps.
- `Thread.sleep` and `Math.random` service times become one service step. With the interrupt
  flag set, that step always throws, as `Thread.sleep` does.
- Exceptions other than `InterruptedException` occur only where the code calls out: observer
  notifications, prints and the controller log. The stack-trace text is a placeholder, and
  the cws car's error notice drops the exception's message (`e.getMessage()`).
- The log callback and the observer wiring are left out, because the constructors shown do not
  accept the callback. Station messages and thread notices go to two separate logs, so their
  interleaving is not recorded.
- `setRunning(flag)` is left out. It lets `running` become false while threads are still
  uninterrupted, which the station invariant excludes.
- The accessors `getQueue`, `getPumpsList`, `getCarsList`, `isRunning`, `getNumPumps` and
  `getCarCounter` are left out. They read fields that the model exposes directly.
- `carCounter` is an unbounded number. The 32-bit overflow after 2^31 - 1 cars is not modelled.
- `Thread.currentThread().interrupt()` in the handlers is left out. It has no effect on a
  thread that is ending.
- The JavaFX controllers, the rendering classes, the console driver, `module-info.java` and the
  observer interfaces are left out. They are UI, I/O or signatures.

## Findings

| source | as written | input that shows it | evidently intended | confidence | as-written member | corrected member |
|---|---|---|---|---|---|---|
| src/main/java/simulator/cws/ServiceStation.java:124-129 | `reset()` sets the bay permits from `numPumps`, then sets `numPumps = 0` | `new ServiceStation(1, 1, cb)`, `reset()`, `startSimulation()`: no pump is started; a second `reset()` leaves 0 bay permits | reset restores the last configured station, and a restart starts `numPumps` pumps | not executed; high | Findings.ResetLosesPumps | Findings.RestartAfterReset |
| src/main/java/simulator/cws/ServiceStation.java:117-124 | `reset()` overwrites the permit counts without waiting for the interrupted threads | waiting area 1, one pump: start, add a car, let it enqueue, let the pump serve it up to `empty.release()`, `reset()`, then the pump releases: `empty` = 2 | reset waits for every thread to end before restoring the permits | not executed; high | Findings.UnjoinedResetOverfills | Findings.JoinedResetKeepsCapacity |
| src/main/java/simulator/cws/ServiceStation.java:79-81 | `reset()` keeps `carCounter` | start, add a car, `reset()`, start, add a car: "C2 arrived" | after a reset, cars are numbered from C1 as on a new station | not executed; medium | Findings.ResetKeepsCounter | Findings.RestartAfterReset |
| src/main/java/simulator/cws/ServiceStation.java:117-121 | `reset()` clears the queue and sets the mutex to one permit without taking the mutex | waiting area 1, one pump: start, add a car, let it enqueue and signal, let the pump take `full` and `mutex`, `reset()`, then the pump's step: it finds the queue empty, releases the mutex, and `mutex` = 2 | reset leaves the queue and the semaphores to threads that have all ended | not executed; high | Findings.ResetRacesRetry | Findings.JoinedResetKeepsMutex |

=== FILE: accounting.dfy ===
/** Every permit of the four semaphores is accounted for. */
module Accounting {
  import opened Results
  import opened Threads
  import opened Protocol

  /** The permit accounting of the four semaphores for a waiting area of `capacity` slots and
      `bays` bays: every permit is either available or held by exactly one thread or queue entry. */
  ghost predicate Conserved(p: Pool, capacity: nat, bays: nat) {
    && p.mutex + Sum(p.threads, MutexOf) == 1
    && p.pumps + Sum(p.threads, BayOf) == bays
    && p.empty + Sum(p.threads, SlotOf) + |p.queue| == capacity
    && p.full + Sum(p.threads, SignalOf) == |p.queue|
  }

  /** A step changes each permit count by exactly what the stepping thread gives up or takes. */
  ghost predicate Balanced(p: Pool, r: Pool, t: nat)
    requires t < |p.threads| && t < |r.threads|
  {
    var a, b := p.threads[t], r.threads[t];
    && r.mutex + MutexOf(b) == p.mutex + MutexOf(a)
    && r.pumps + BayOf(b) == p.pumps + BayOf(a)
    && r.empty + SlotOf(b) + |r.queue| == p.empty + SlotOf(a) + |p.queue|
    && r.full + SignalOf(b) + |p.queue| == p.full + SignalOf(a) + |r.queue|
  }

  lemma CarBalanced(p: Pool, t: nat, m: Move)
    requires t < |p.threads| && p.threads[t].Car?
    requires Next(p, t, m).Some?
    ensures Balanced(p, Next(p, t, m).value, t)
  {
    assert Next(p, t, m) == CarStep(p, t, m);
  }

  lemma PumpBalanced(p: Pool, t: nat, m: Move)
    requires t < |p.threads| && p.threads[t].Pump?
    requires p.threads[t].pumpPhase.Checking? ==> |p.queue| > 0
    requires Next(p, t, m).Some?
    ensures Balanced(p, Next(p, t, m).value, t)
  {
    assert Next(p, t, m) == PumpStep(p, t, m);
    var a := p.threads[t];
    var b := Next(p, t, m).value.threads[t];
    match a.pumpPhase
    case Idle =>
    case Claiming =>
    case Checking =>
      var car := p.queue[0];
      assert |Next(p, t, m).value.queue| + 1 == |p.queue|;
      if m == Advance {
        assert b.pumpPhase == LoggedIn(car);
      } else {
        assert b.pumpPhase == Down(LoggedIn(car));
        DownHoldsSame(LoggedIn(car));
      }
    case LoggedIn(_) =>
    case WaitingBay(_) =>
    case Bayed(_) =>
    case Servicing(_) =>
    case Serviced(_) =>
    case Freeing(_) =>
    case Down(_) =>
  }

  lemma AccountingStep(p: Pool, capacity: nat, bays: nat, t: nat, m: Move)
    requires Conserved(p, capacity, bays)
    requires Next(p, t, m).Some?
    ensures Conserved(Next(p, t, m).value, capacity, bays)
  {
    StepFrame(p, t, m);
    var r := Next(p, t, m).value;
    SumBound(p.threads, t, SignalOf);
    if p.threads[t].Car? {
      CarBalanced(p, t, m);
    } else {
      PumpBalanced(p, t, m);
    }
    SumUpdate(p.threads, t, r.threads[t], MutexOf);
    SumUpdate(p.threads, t, r.threads[t], BayOf);
    SumUpdate(p.threads, t, r.threads[t], SlotOf);
    SumUpdate(p.threads, t, r.threads[t], SignalOf);
  }
}


=== FILE: events.dfy ===
/** What cars and pumps report to their observers (or print), as data.
    The protocol appends these to an event log in the order they are produced. */
module Events {

  datatype Event =
    | Arrives(car: nat)                    // onCarArrives / "C<id> arrived"
    | EntersQueue(car: nat)                // onCarEntersQueue / "C<id> entered the queue"
    | Login(pump: nat, car: nat)           // onCarLogins / "Pump <p>: C<id> login"
    | BeginsService(pump: nat, car: nat)   // onCarBeginsService / "... begins service at Bay <p>"
    | FinishesService(pump: nat, car: nat) // onCarFinishesService / "... finishes service"
    | BayFree(pump: nat)                   // "Pump <p>: Bay <p> is now free" (console and gui pumps)
    | CarInterrupted(car: nat)             // "C<id> interrupted and leaving the station..."
    | CarError(car: nat)                   // "C<id> encountered an error: ..."
    | PumpShuttingDown(pump: nat)          // "Pump <p> shutting down..."
    | StackTrace                           // e.printStackTrace() of the console variants

  function Digit(d: nat): char
    requires d < 10
  {
    "0123456789"[d]
  }

  /** The decimal rendering Java uses for `"" + n` on a non-negative int. */
  function Decimal(n: nat): (r: string)
    ensures |r| >= 1
  {
    if n < 10 then [Digit(n)] else Decimal(n / 10) + [Digit(n % 10)]
  }

  /** The tag a car carries in the queue and in every message: "C" followed by its id. */
  function CarTag(id: nat): string {
    "C" + Decimal(id)
  }

  /** The tag of a pump: "Pump " followed by its id. */
  function PumpTag(id: nat): string {
    "Pump " + Decimal(id)
  }

  lemma DigitInjective(a: nat, b: nat)
    requires a < 10 && b < 10
    ensures Digit(a) == Digit(b) <==> a == b
  {
  }

  /** Distinct numbers render to distinct decimal strings. */
  lemma {:induction false} DecimalInjective(a: nat, b: nat)
    ensures Decimal(a) == Decimal(b) <==> a == b
    decreases a
  {
    if Decimal(a) == Decimal(b) {
      var da, db := Decimal(a), Decimal(b);
      if a < 10 && b < 10 {
        DigitInjective(a, b);
      } else if a >= 10 && b >= 10 {
        assert da[..|da| - 1] == Decimal(a / 10) && da[|da| - 1] == Digit(a % 10);
        assert db[..|db| - 1] == Decimal(b / 10) && db[|db| - 1] == Digit(b % 10);
        DecimalInjective(a / 10, b / 10);
        DigitInjective(a % 10, b % 10);
      }
    }
  }

  /** Car tags identify cars: two cars share a tag exactly when they share an id.
      This is why the model may keep ids, rather than tag strings, in the queue. */
  lemma CarTagInjective(a: nat, b: nat)
    ensures CarTag(a) == CarTag(b) <==> a == b
  {
    DecimalInjective(a, b);
    if CarTag(a) == CarTag(b) {
      assert CarTag(a)[1..] == Decimal(a);
      assert CarTag(b)[1..] == Decimal(b);
    }
  }

  /** The text of each event as the source writes it (the console and gui wording for the
      service events, the observer notices for the rest). */
  function Text(e: Event): (r: string)
    ensures e.Arrives? || e.EntersQueue? || e.CarInterrupted? || e.CarError? ==>
              CarTag(e.car) <= r
    ensures e.Login? || e.BeginsService? || e.FinishesService? || e.BayFree? || e.PumpShuttingDown? ==>
              PumpTag(e.pump) <= r
  {
    match e
    case Arrives(c) => CarTag(c) + " arrived"
    case EntersQueue(c) => CarTag(c) + " entered the queue"
    case Login(p, c) => PumpTag(p) + ": " + CarTag(c) + " login"
    case BeginsService(p, c) => PumpTag(p) + ": " + CarTag(c) + " begins service at Bay " + Decimal(p)
    case FinishesService(p, c) => PumpTag(p) + ": " + CarTag(c) + " finishes service"
    case BayFree(p) => PumpTag(p) + ": Bay " + Decimal(p) + " is now free"
    case CarInterrupted(c) => CarTag(c) + " interrupted and leaving the station..."
    case CarError(c) => CarTag(c) + " encountered an error: "
    case PumpShuttingDown(p) => PumpTag(p) + " shutting down..."
    case StackTrace => "(stack trace)"
  }

  /** The cars named by Login events, in log order. */
  function LoginCars(es: seq<Event>): seq<nat> {
    if |es| == 0 then []
    else LoginCars(es[..|es| - 1]) + (if es[|es| - 1].Login? then [es[|es| - 1].car] else [])
  }

  /** The cars named by EntersQueue events, in log order. */
  function EnteredCars(es: seq<Event>): seq<nat> {
    if |es| == 0 then []
    else EnteredCars(es[..|es| - 1]) + (if es[|es| - 1].EntersQueue? then [es[|es| - 1].car] else [])
  }

  lemma LogAppend(es: seq<Event>, e: Event)
    ensures LoginCars(es + [e]) == LoginCars(es) + (if e.Login? then [e.car] else [])
    ensures EnteredCars(es + [e]) == EnteredCars(es) + (if e.EntersQueue? then [e.car] else [])
  {
    assert (es + [e])[..|es|] == es;
  }

  lemma {:induction false} LogConcat(es: seq<Event>, xs: seq<Event>)
    ensures LoginCars(es + xs) == LoginCars(es) + LoginCars(xs)
    ensures EnteredCars(es + xs) == EnteredCars(es) + EnteredCars(xs)
    decreases |xs|
  {
    if |xs| == 0 {
      assert es + xs == es;
    } else {
      var n := |xs| - 1;
      assert es + xs == (es + xs[..n]) + [xs[n]];
      assert xs == xs[..n] + [xs[n]];
      LogConcat(es, xs[..n]);
      LogAppend(es + xs[..n], xs[n]);
      LogAppend(xs[..n], xs[n]);
    }
  }

  /** A stretch of log without EntersQueue or Login notices adds nothing to either projection. */
  lemma {:induction false} QuietLog(xs: seq<Event>)
    requires forall i :: 0 <= i < |xs| ==> !xs[i].Login? && !xs[i].EntersQueue?
    ensures LoginCars(xs) == [] && EnteredCars(xs) == []
  {
    if |xs| > 0 {
      QuietLog(xs[..|xs| - 1]);
    }
  }
}

=== FILE: findings.dfy ===
/** Four ways reset() as written departs from what it evidently intends, each shown on a
    concrete run, next to the joined reset that the rest of the model uses. */
module Findings {
  import opened Results
  import opened Events
  import opened Threads
  import opened Protocol
  import opened Invariant
  import opened Station
  import opened Simulation

  /** A one-pump station with a one-car waiting area. */
  function Small(): Station {
    Create(1, 1, true).value
  }

  // ---- 1. reset() zeroes numPumps ---------------------------------------------------------------

  /** After one reset, starting again creates no pump at all; after a second reset the bay
      semaphore has no permits. */
  lemma ResetLosesPumps()
    ensures Small().numPumps == 1
    ensures var s := StartSimulation(Reset(Small())); s.running && s.pumpsList == [] && s.pool.threads == []
    ensures Reset(Reset(Small())).pool.pumps == 0
  {
  }

  /** The joined reset leaves exactly the station the constructor builds (apart from the logs),
      so starting again creates pumps 1..numPumps and numbers cars from 1 again. */
  lemma RestartAfterReset(s: Station)
    requires StationInv(s)
    requires ResetJoined(s).Some?
    ensures var r := ResetJoined(s).value;
      && Create(s.waitingAreaSize, s.numPumps, true).Ok?
      && r == Create(s.waitingAreaSize, s.numPumps, true).value.(log := r.log, earlier := r.earlier)
    ensures var t := StartSimulation(ResetJoined(s).value);
      && |t.pumpsList| == s.numPumps
      && forall j :: 0 <= j < |t.pool.threads| ==> t.pool.threads[j] == NewPump(j + 1)
    ensures var t := AddCar(StartSimulation(ResetJoined(s).value));
      t.carCounter == 1 && t.log[|t.log| - 1] == CarArrived(1)
  {
  }

  // ---- 2. reset() does not wait for its threads -----------------------------------------------

  /** Thread `t` takes `n` ordinary steps in a row. */
  function Drive(p: Pool, t: nat, n: nat): (r: Option<Pool>)
    decreases n
  {
    if n == 0 then Some(p)
    else match Next(p, t, Advance)
      case None => None
      case Some(q) => Drive(q, t, n - 1)
  }

  /** Start, add one car, let the car enqueue and signal, and let the pump serve it up to its
      final `empty.release()`. Thread 0 is the pump, thread 1 the car. */
  function Served(): (r: Option<Station>)
  {
    var s := AddCar(StartSimulation(Small()));
    match Drive(s.pool, 1, 6)
    case None => None
    case Some(p) =>
      match Drive(p, 0, 8)
      case None => None
      case Some(q) => Some(s.(pool := q))
  }

  /** ... then reset as written, and let the pump make that release. */
  function Straggler(): (r: Option<Station>)
  {
    match Served()
    case None => None
    case Some(s) =>
      var after := Reset(s);
      match Next(after.pool, 0, Advance)
      case None => None
      case Some(last) => Some(after.(pool := last))
  }

  /** The pump's late `empty.release()` lands on the freshly reset semaphore: the station then
      reports two free waiting places for a waiting area of one. */
  lemma UnjoinedResetOverfills()
    ensures Straggler().Some?
    ensures var s := Straggler().value;
      s.waitingAreaSize == 1 && s.pool.empty == 2 && WaitingAreaSize(s) > s.waitingAreaSize
  {
    var sq := ServedState();
    LateRelease(sq);
  }

  lemma ServedState() returns (sq: Station)
    ensures Served() == Some(sq)
    ensures sq.running && sq.waitingAreaSize == 1 && sq.pumpsList == [0] && sq.carsList == [1]
    ensures |sq.pool.threads| == 2 && sq.pool.threads[0] == Pump(1, ObservedPump, Freeing(1), false)
  {
    var s0 := Small();
    assert s0.pool == InitPool(1, 1) && !s0.running && s0.numPumps == 1;
    var s1 := StartSimulation(s0);
    assert s1.pool.threads == [NewPump(1)] && s1.running;
    var s := AddCar(s1);
    var p := s.pool;
    assert p == InitPool(1, 1).(threads := [NewPump(1), Car(1, ObservedCar, Arriving, false)]);
    var c := CarRuns(p);
    var q := PumpServes(c);
    sq := s.(pool := q);
  }

  lemma LateRelease(sq: Station)
    requires sq.running && sq.waitingAreaSize == 1 && sq.pumpsList == [0] && sq.carsList == [1]
    requires |sq.pool.threads| == 2 && sq.pool.threads[0] == Pump(1, ObservedPump, Freeing(1), false)
    ensures var after := Reset(sq);
      && Next(after.pool, 0, Advance).Some?
      && after.waitingAreaSize == 1 && Next(after.pool, 0, Advance).value.empty == 2
  {
    var st := StopSimulation(sq);
    assert st.pool.threads[0] == Pump(1, ObservedPump, Freeing(1), true);
    var after := Reset(sq);
    assert after.pool.threads[0] == Pump(1, ObservedPump, Freeing(1), true);
    assert after.pool.empty == 1;
  }

  /** The car enqueues and signals. */
  lemma CarRuns(p: Pool) returns (c: Pool)
    requires p == InitPool(1, 1).(threads := [NewPump(1), Car(1, ObservedCar, Arriving, false)])
    ensures Drive(p, 1, 6) == Some(c)
    ensures c.threads == [NewPump(1), Car(1, ObservedCar, Done, false)]
    ensures c.queue == [1] && c.mutex == 1 && c.empty == 0 && c.full == 1 && c.pumps == 1
  {
    var pump := NewPump(1);
    var p1 := Next(p, 1, Advance).value;
    assert p1.threads == [pump, Car(1, ObservedCar, WaitingSlot, false)] && p1.empty == 1 && p1.mutex == 1;
    var p2 := Next(p1, 1, Advance).value;
    assert p2.threads == [pump, Car(1, ObservedCar, Locking, false)] && p2.empty == 0 && p2.mutex == 1;
    var p3 := Next(p2, 1, Advance).value;
    assert p3.threads == [pump, Car(1, ObservedCar, Enqueuing, false)] && p3.mutex == 0 && p3.queue == [];
    var p4 := Next(p3, 1, Advance).value;
    assert p4.threads == [pump, Car(1, ObservedCar, Entered, false)] && p4.mutex == 0 && p4.queue == [1];
    var p5 := Next(p4, 1, Advance).value;
    assert p5.threads == [pump, Car(1, ObservedCar, Signalling, false)] && p5.mutex == 1 && p5.full == 0;
    c := Next(p5, 1, Advance).value;
    assert Drive(p5, 1, 1) == Some(c);
    assert Drive(p4, 1, 2) == Some(c);
    assert Drive(p3, 1, 3) == Some(c);
    assert Drive(p2, 1, 4) == Some(c);
    assert Drive(p1, 1, 5) == Some(c);
  }

  /** The pump takes the car and serves it, stopping just before `empty.release()`. */
  lemma PumpServes(c: Pool) returns (q: Pool)
    requires c.threads == [NewPump(1), Car(1, ObservedCar, Done, false)]
    requires c.queue == [1] && c.mutex == 1 && c.empty == 0 && c.full == 1 && c.pumps == 1
    ensures Drive(c, 0, 8) == Some(q)
    ensures |q.threads| == 2 && q.threads[0] == Pump(1, ObservedPump, Freeing(1), false)
  {
    var p1 := Next(c, 0, Advance).value;
    var p2 := Next(p1, 0, Advance).value;
    var p3 := Next(p2, 0, Advance).value;
    var p4 := Next(p3, 0, Advance).value;
    var p5 := Next(p4, 0, Advance).value;
    var p6 := Next(p5, 0, Advance).value;
    var p7 := Next(p6, 0, Advance).value;
    q := Next(p7, 0, Advance).value;
    assert Drive(p7, 0, 1) == Some(q);
    assert Drive(p6, 0, 2) == Some(q);
    assert Drive(p5, 0, 3) == Some(q);
    assert Drive(p4, 0, 4) == Some(q);
    assert Drive(p3, 0, 5) == Some(q);
    assert Drive(p2, 0, 6) == Some(q);
    assert Drive(p1, 0, 7) == Some(q);
  }

  /** With the joined reset, no interleaving of calls and thread steps ever lets the waiting
      area report more room than it has. */
  lemma JoinedResetKeepsCapacity(waitingAreaSize: int, numPumps: int, actions: seq<Action>)
    requires Create(waitingAreaSize, numPumps, true).Ok?
    requires Perform(Create(waitingAreaSize, numPumps, true).value, actions).Some?
    ensures var s := Perform(Create(waitingAreaSize, numPumps, true).value, actions).value;
      WaitingAreaSize(s) <= s.waitingAreaSize && s.pool.empty <= s.waitingAreaSize
  {
    var s0 := Create(waitingAreaSize, numPumps, true).value;
    CreateInv(waitingAreaSize, numPumps);
    PerformInv(s0, actions);
    Counters(Perform(s0, actions).value);
  }

  // ---- 3. reset() keeps the car counter ------------------------------------------------------

  /** A car added after a reset is announced as "C2", not "C1" as on a new station. */
  lemma ResetKeepsCounter()
    ensures var s := AddCar(StartSimulation(Small())); s.log[|s.log| - 1] == CarArrived(1)
    ensures var s := AddCar(StartSimulation(Reset(AddCar(StartSimulation(Small())))));
      s.carCounter == 2 && s.log[|s.log| - 1] == CarArrived(2)
  {
    var s0 := Small();
    assert !s0.running && s0.carCounter == 0;
    CounterAcrossReset(s0);
  }

  /** From any stopped station, start / add / reset / start / add numbers the second car one past
      the first: reset as written does not restart the numbering. */
  lemma CounterAcrossReset(s: Station)
    requires !s.running
    ensures var t := AddCar(StartSimulation(s));
      t.carCounter == s.carCounter + 1 && t.log[|t.log| - 1] == CarArrived(s.carCounter + 1)
    ensures var t := AddCar(StartSimulation(Reset(AddCar(StartSimulation(s)))));
      t.carCounter == s.carCounter + 2 && t.log[|t.log| - 1] == CarArrived(s.carCounter + 2)
  {
    var s1 := StartSimulation(s);
    var s2 := AddCar(s1);
    var s3 := Reset(s2);
    var s4 := StartSimulation(s3);
  }

  // ---- 4. reset() touches the queue and the mutex under a running pump -------------------------

  /** Start, add one car, let it enqueue and signal, let the pump take the signal and the mutex,
      and reset as written while the pump is about to test whether the queue is empty. */
  function Racing(): (r: Option<Station>)
  {
    var s := AddCar(StartSimulation(Small()));
    match Drive(s.pool, 1, 6)
    case None => None
    case Some(p) =>
      match Drive(p, 0, 2)
      case None => None
      case Some(q) => Some(Reset(s.(pool := q)))
  }

  /** `queue.clear()` and `mutex.setPermits(1)` in reset() run while the pump holds the mutex, so
      the pump finds the queue empty and takes the retry branch; its `mutex.release()` then
      leaves two mutex permits, and two threads may enter the critical section together. */
  lemma ResetRacesRetry()
    ensures Racing().Some?
    ensures var s := Racing().value;
      && s.pool.queue == [] && s.pool.mutex == 1
      && |s.pool.threads| == 2 && s.pool.threads[0].Pump? && s.pool.threads[0].pumpPhase == Checking
      && Next(s.pool, 0, Advance).Some?
      && var r := Next(s.pool, 0, Advance).value;
        r.threads[0].pumpPhase == Idle && r.mutex == 2
  {
    var sr := RacingState();
    RetryAfterReset(sr);
  }

  lemma RacingState() returns (sr: Station)
    ensures Racing() == Some(Reset(sr))
    ensures sr.running && sr.waitingAreaSize == 1 && sr.pumpsList == [0] && sr.carsList == [1]
    ensures |sr.pool.threads| == 2 && sr.pool.threads[0] == Pump(1, ObservedPump, Checking, false)
    ensures sr.pool.mutex == 0
  {
    var s0 := Small();
    assert s0.pool == InitPool(1, 1) && !s0.running && s0.numPumps == 1;
    var s1 := StartSimulation(s0);
    assert s1.pool.threads == [NewPump(1)] && s1.running;
    var s := AddCar(s1);
    var p := s.pool;
    assert p == InitPool(1, 1).(threads := [NewPump(1), Car(1, ObservedCar, Arriving, false)]);
    var c := CarRuns(p);
    var q := PumpClaims(c);
    sr := s.(pool := q);
  }

  /** The pump takes the car's signal and then the mutex. */
  lemma PumpClaims(c: Pool) returns (q: Pool)
    requires c.threads == [NewPump(1), Car(1, ObservedCar, Done, false)]
    requires c.queue == [1] && c.mutex == 1 && c.empty == 0 && c.full == 1 && c.pumps == 1
    ensures Drive(c, 0, 2) == Some(q)
    ensures |q.threads| == 2 && q.threads[0] == Pump(1, ObservedPump, Checking, false) && q.mutex == 0
  {
    var q1 := Next(c, 0, Advance).value;
    assert q1.threads[0] == Pump(1, ObservedPump, Claiming, false) && q1.mutex == 1;
    q := Next(q1, 0, Advance).value;
    assert Drive(q1, 0, 1) == Some(q);
  }

  lemma RetryAfterReset(sr: Station)
    requires sr.running && sr.waitingAreaSize == 1 && sr.pumpsList == [0] && sr.carsList == [1]
    requires |sr.pool.threads| == 2 && sr.pool.threads[0] == Pump(1, ObservedPump, Checking, false)
    ensures var s := Reset(sr);
      && s.pool.queue == [] && s.pool.mutex == 1
      && |s.pool.threads| == 2 && s.pool.threads[0].Pump? && s.pool.threads[0].pumpPhase == Checking
      && Next(s.pool, 0, Advance).Some?
      && var r := Next(s.pool, 0, Advance).value;
        r.threads[0].pumpPhase == Idle && r.mutex == 2
  {
    var st := StopSimulation(sr);
    assert st.pool.threads[0] == Pump(1, ObservedPump, Checking, true);
    var after := Reset(sr);
    assert after.pool.threads[0] == Pump(1, ObservedPump, Checking, true);
  }

  /** With the joined reset, no interleaving of calls and thread steps ever gives a pump at the
      empty-queue test an empty queue, so the retry branch is never taken and the mutex never
      has more than one permit. */
  lemma JoinedResetKeepsMutex(waitingAreaSize: int, numPumps: int, actions: seq<Action>, t: nat)
    requires Create(waitingAreaSize, numPumps, true).Ok?
    requires Perform(Create(waitingAreaSize, numPumps, true).value, actions).Some?
    ensures var s := Perform(Create(waitingAreaSize, numPumps, true).value, actions).value;
      && s.pool.mutex <= 1
      && (t < |s.pool.threads| && s.pool.threads[t].Pump? && s.pool.threads[t].pumpPhase == Checking
          ==> |s.pool.queue| > 0)
  {
    var s0 := Create(waitingAreaSize, numPumps, true).value;
    CreateInv(waitingAreaSize, numPumps);
    PerformInv(s0, actions);
    var s := Perform(s0, actions).value;
    QueueBounded(s.pool, s.waitingAreaSize, s.numPumps);
    if t < |s.pool.threads| && s.pool.threads[t].Pump? && s.pool.threads[t].pumpPhase == Checking {
      RetryUnreachable(s.pool, s.waitingAreaSize, s.numPumps, t);
    }
  }
}

=== FILE: invariant.dfy ===
/** The protocol invariant, its preservation over any schedule, and what it guarantees. */
module Invariant {
  import opened Results
  import opened Sequences
  import opened Events
  import opened Threads
  import opened Protocol
  import opened Accounting
  import opened Ordering
  import opened Notices

  ghost predicate Inv(p: Pool, capacity: nat, bays: nat) {
    && Conserved(p, capacity, bays)
    && Fifo(p)
    && Owned(p)
    && Reported(p)
  }

  /** A schedule: which thread moves, and how. */
  datatype Choice = Choice(thread: nat, move: Move)

  /** Run the schedule from `p`; None as soon as a chosen move is not enabled. */
  function Run(p: Pool, schedule: seq<Choice>): Option<Pool>
    decreases |schedule|
  {
    if |schedule| == 0 then Some(p)
    else match Next(p, schedule[0].thread, schedule[0].move)
      case None => None
      case Some(p') => Run(p', schedule[1..])
  }

  /** The station's fresh queue and permits satisfy the invariant. */
  lemma InitInv(capacity: nat, bays: nat)
    ensures Inv(InitPool(capacity, bays), capacity, bays)
  {
  }

  /** Every enabled step of every car and pump preserves the invariant. */
  lemma StepInv(p: Pool, capacity: nat, bays: nat, t: nat, m: Move)
    requires Inv(p, capacity, bays)
    requires Next(p, t, m).Some?
    ensures Inv(Next(p, t, m).value, capacity, bays)
  {
    AccountingStep(p, capacity, bays, t, m);
    OrderStep(p, t, m);
    ReportStep(p, t, m);
  }

  /** ... and so does every schedule, whatever the interleaving. */
  lemma {:induction false} RunInv(p: Pool, capacity: nat, bays: nat, schedule: seq<Choice>)
    requires Inv(p, capacity, bays)
    requires Run(p, schedule).Some?
    ensures Inv(Run(p, schedule).value, capacity, bays)
    decreases |schedule|
  {
    if |schedule| > 0 {
      var c := schedule[0];
      StepInv(p, capacity, bays, c.thread, c.move);
      RunInv(Next(p, c.thread, c.move).value, capacity, bays, schedule[1..]);
    }
  }

  // ---- what the invariant guarantees ---------------------------------------------------------

  /** The waiting area never holds more cars than its capacity, and `full` never promises a car
      that is not in the queue. */
  lemma QueueBounded(p: Pool, capacity: nat, bays: nat)
    requires Inv(p, capacity, bays)
    ensures |p.queue| <= capacity
    ensures p.full <= |p.queue|
    ensures p.mutex <= 1
    ensures p.pumps <= bays
  {
  }

  /** Once a pump holds the mutex after `full.acquire()`, the queue is not empty: the branch
      that gives the mutex back and retries is never taken while the invariant holds. */
  lemma RetryUnreachable(p: Pool, capacity: nat, bays: nat, t: nat)
    requires Inv(p, capacity, bays)
    requires t < |p.threads| && p.threads[t].Pump? && p.threads[t].pumpPhase == Checking
    ensures |p.queue| > 0
  {
    SumBound(p.threads, t, SignalOf);
  }

  /** Cars leave the queue in the order they entered it, each at most once, and Login notices
      name each car at most once, in that same order. */
  lemma ExactlyOnceFifo(p: Pool, capacity: nat, bays: nat)
    requires Inv(p, capacity, bays)
    ensures p.dequeued <= p.enqueued
    ensures Distinct(p.dequeued)
    ensures Distinct(LoginCars(p.events))
    ensures IsSubsequence(LoginCars(p.events), p.enqueued)
    ensures Distinct(EnteredCars(p.events))
  {
    DistinctPrefix(p.dequeued, p.queue);
    SubsequenceDistinct(LoginCars(p.events), p.dequeued);
    SubsequenceDistinct(EnteredCars(p.events), p.enqueued);
    SubsequenceOfPrefix(LoginCars(p.events), p.dequeued, p.queue);
  }

  lemma {:induction false} SubsequenceOfPrefix(a: seq<nat>, b: seq<nat>, c: seq<nat>)
    requires IsSubsequence(a, b)
    ensures IsSubsequence(a, b + c)
    decreases |c|
  {
    if |c| == 0 {
      assert b + c == b;
    } else {
      var n := |c| - 1;
      SubsequenceOfPrefix(a, b, c[..n]);
      SubsequenceExtendRight(a, b + c[..n], c[n]);
      assert b + c == (b + c[..n]) + [c[n]];
    }
  }

  /** No two pumps ever hold the same car, and a car held by a pump is no longer queued. */
  lemma NoCarTwice(p: Pool, capacity: nat, bays: nat, i: nat, j: nat)
    requires Inv(p, capacity, bays)
    requires i < |p.threads| && j < |p.threads| && i != j
    requires HeldCar(p.threads[i]).Some?
    ensures HeldCar(p.threads[i]) != HeldCar(p.threads[j])
    ensures HeldCar(p.threads[i]).value !in p.queue
  {
    if j < i && HeldCar(p.threads[j]).Some? {
      assert HeldCar(p.threads[j]) != HeldCar(p.threads[i]);
    }
    assert HeldRemoved(p.threads[i], p.dequeued);
    DistinctPrefix(p.dequeued, p.queue);
  }

  /** Waiting-area permits a car or pump holds outside the queue, plus appended-but-unclaimed
      queue entries: the gap between getWaitingAreaSize() and the capacity. */
  ghost function InTransit(p: Pool): nat {
    Sum(p.threads, SlotOf) + Sum(p.threads, SignalOf)
  }

  /** `empty + full` never exceeds the capacity, and reaches it exactly when no car is between
      `empty.acquire()` and `full.release()` and no pump is between `full.acquire()` and
      `empty.release()`. */
  lemma WaitingAreaGap(p: Pool, capacity: nat, bays: nat)
    requires Inv(p, capacity, bays)
    ensures p.empty + p.full + InTransit(p) == capacity
    ensures p.empty + p.full <= capacity
    ensures p.empty + p.full == capacity <==>
              forall i :: 0 <= i < |p.threads| ==> SlotOf(p.threads[i]) == 0 && SignalOf(p.threads[i]) == 0
  {
    if p.empty + p.full == capacity {
      forall i | 0 <= i < |p.threads|
        ensures SlotOf(p.threads[i]) == 0 && SignalOf(p.threads[i]) == 0
      {
        SumBound(p.threads, i, SlotOf);
        SumBound(p.threads, i, SignalOf);
      }
    } else {
      if Sum(p.threads, SlotOf) > 0 {
        var i := SumWitness(p.threads, SlotOf);
      } else {
        var i := SumWitness(p.threads, SignalOf);
      }
    }
    if forall i :: 0 <= i < |p.threads| ==> SlotOf(p.threads[i]) == 0 && SignalOf(p.threads[i]) == 0 {
      SumZero(p.threads, SlotOf);
      SumZero(p.threads, SignalOf);
    }
  }

  /** A thread holding the mutex holds it alone, and it is either dead (an exception ended it
      inside the critical section) or can leave the critical section without blocking: the
      mutex is never held across `pumps.acquire()`, the service sleep or any other wait. */
  lemma MutexHolderProceeds(p: Pool, capacity: nat, bays: nat, t: nat)
    requires Inv(p, capacity, bays)
    requires t < |p.threads| && MutexOf(p.threads[t]) == 1
    ensures p.mutex == 0
    ensures forall j :: 0 <= j < |p.threads| && j != t ==> MutexOf(p.threads[j]) == 0
    ensures Live(p.threads[t]) ==> Next(p, t, Advance).Some?
  {
    SumBound(p.threads, t, MutexOf);
    forall j | 0 <= j < |p.threads| && j != t
      ensures MutexOf(p.threads[j]) == 0
    {
      SumPair(p.threads, t, j, MutexOf);
    }
    if p.threads[t].Pump? && p.threads[t].pumpPhase == Checking {
      RetryUnreachable(p, capacity, bays, t);
    }
  }

  /** When no mutex permit is available, some thread holds it. */
  lemma MutexHeld(p: Pool, capacity: nat, bays: nat) returns (t: nat)
    requires Inv(p, capacity, bays)
    requires p.mutex == 0
    ensures t < |p.threads| && MutexOf(p.threads[t]) == 1
  {
    t := SumWitness(p.threads, MutexOf);
  }

  // ---- threads joining, and interrupt flags -------------------------------------------------

  /** A thread that holds nothing, has taken no car, and (if a car) carries a fresh id may join
      the pool without breaking the invariant. */
  lemma JoinIdle(p: Pool, capacity: nat, bays: nat, u: Thread)
    requires Inv(p, capacity, bays)
    requires MutexOf(u) == 0 && BayOf(u) == 0 && SlotOf(u) == 0 && SignalOf(u) == 0
    requires HeldCar(u).None? && CarFresh(u, p.enqueued) && Witnessed(u, p.events)
    requires u.Car? ==> forall i :: 0 <= i < |p.threads| && p.threads[i].Car? ==> p.threads[i].id != u.id
    ensures Inv(p.(threads := p.threads + [u]), capacity, bays)
  {
    var ts := p.threads + [u];
    assert ts[..|p.threads|] == p.threads;
    var r := p.(threads := ts);
    assert Owned(r) by {
      forall i, j | 0 <= i < j < |ts| && ts[i].Car? && ts[j].Car?
        ensures ts[i].id != ts[j].id
      {
        if j < |p.threads| {
          assert ts[i] == p.threads[i] && ts[j] == p.threads[j];
        }
      }
      forall i, j | 0 <= i < j < |ts| && HeldCar(ts[i]).Some?
        ensures HeldCar(ts[i]) != HeldCar(ts[j])
      {
        if j < |p.threads| {
          assert ts[i] == p.threads[i] && ts[j] == p.threads[j];
        }
      }
    }
  }

  /** Same thread, possibly with its interrupt flag now set. */
  predicate Reflagged(a: Thread, b: Thread) {
    b == a || b == a.(interrupted := true)
  }

  /** Setting interrupt flags breaks nothing: what a thread holds and what it has reported
      depend only on its position in run(). */
  lemma ReflagInv(p: Pool, capacity: nat, bays: nat, ts: seq<Thread>)
    requires Inv(p, capacity, bays)
    requires |ts| == |p.threads|
    requires forall i :: 0 <= i < |ts| ==> Reflagged(p.threads[i], ts[i])
    ensures Inv(p.(threads := ts), capacity, bays)
  {
    var r := p.(threads := ts);
    assert Conserved(r, capacity, bays) by {
      SumCongruent(p.threads, ts, MutexOf);
      SumCongruent(p.threads, ts, BayOf);
      SumCongruent(p.threads, ts, SlotOf);
      SumCongruent(p.threads, ts, SignalOf);
    }
    assert Owned(r) by {
      assert forall i :: 0 <= i < |ts| ==> HeldCar(ts[i]) == HeldCar(p.threads[i]);
    }
    assert Reported(r) by {
      assert forall i :: 0 <= i < |ts| ==> Witnessed(ts[i], p.events) == Witnessed(p.threads[i], p.events);
    }
  }
}

=== FILE: notices.dfy ===
/** The order of notices: a car reports entering the queue only after it reported arriving,
    and a pump reports beginning service only after it logged the car in, and finishing
    only after it began. */
module Notices {
  import opened Results
  import opened Events
  import opened Threads
  import opened Protocol

  /** Each EntersQueue, BeginsService and FinishesService notice is preceded by its predecessor
      for the same car (and the same pump). */
  ghost predicate Causal(es: seq<Event>) {
    forall i :: 0 <= i < |es| ==>
      && (es[i].EntersQueue? ==> Arrives(es[i].car) in es[..i])
      && (es[i].BeginsService? ==> Login(es[i].pump, es[i].car) in es[..i])
      && (es[i].FinishesService? ==> BeginsService(es[i].pump, es[i].car) in es[..i])
  }

  /** What a thread's position says the log already holds. */
  ghost predicate Witnessed(th: Thread, es: seq<Event>) {
    match th
    case Car(id, _, ph, _) =>
      (ph == WaitingSlot || ph == Locking || ph == Enqueuing) ==> Arrives(id) in es
    case Pump(id, _, ph, _) =>
      match ph
      case LoggedIn(c) => Login(id, c) in es
      case WaitingBay(c) => Login(id, c) in es
      case Bayed(c) => Login(id, c) in es
      case Servicing(c) => BeginsService(id, c) in es
      case _ => true
  }

  ghost predicate Reported(p: Pool) {
    && Causal(p.events)
    && forall i :: 0 <= i < |p.threads| ==> Witnessed(p.threads[i], p.events)
  }

  /** A notice whose predecessor is already logged keeps the log causal. */
  lemma CausalAppend(es: seq<Event>, e: Event)
    requires Causal(es)
    requires e.EntersQueue? ==> Arrives(e.car) in es
    requires e.BeginsService? ==> Login(e.pump, e.car) in es
    requires e.FinishesService? ==> BeginsService(e.pump, e.car) in es
    ensures Causal(es + [e])
  {
    var es' := es + [e];
    forall i | 0 <= i < |es'|
      ensures es'[i].EntersQueue? ==> Arrives(es'[i].car) in es'[..i]
      ensures es'[i].BeginsService? ==> Login(es'[i].pump, es'[i].car) in es'[..i]
      ensures es'[i].FinishesService? ==> BeginsService(es'[i].pump, es'[i].car) in es'[..i]
    {
      if i < |es| {
        assert es'[..i] == es[..i];
        assert es'[i] == es[i];
      } else {
        assert es'[..i] == es;
      }
    }
  }

  /** Notices that are none of the three ordered kinds keep the log causal. */
  lemma CausalAppendOther(es: seq<Event>, xs: seq<Event>)
    requires Causal(es)
    requires forall i :: 0 <= i < |xs| ==> !xs[i].EntersQueue? && !xs[i].BeginsService? && !xs[i].FinishesService?
    ensures Causal(es + xs)
    decreases |xs|
  {
    if |xs| > 0 {
      var n := |xs| - 1;
      CausalAppendOther(es, xs[..n]);
      CausalAppend(es + xs[..n], xs[n]);
      assert es + xs == (es + xs[..n]) + [xs[n]];
    } else {
      assert es + xs == es;
    }
  }

  /** A longer log witnesses at least as much. */
  lemma WitnessedGrows(th: Thread, es: seq<Event>, xs: seq<Event>)
    requires Witnessed(th, es)
    ensures Witnessed(th, es + xs)
  {
    assert forall e :: e in es ==> e in es + xs;
  }

  lemma ReportedFrame(p: Pool, r: Pool, t: nat, xs: seq<Event>)
    requires Reported(p)
    requires t < |p.threads| && |r.threads| == |p.threads| && r.threads == p.threads[t := r.threads[t]]
    requires r.events == p.events + xs
    requires Causal(r.events) && Witnessed(r.threads[t], r.events)
    ensures Reported(r)
  {
    forall k | 0 <= k < |r.threads|
      ensures Witnessed(r.threads[k], r.events)
    {
      if k != t {
        WitnessedGrows(p.threads[k], p.events, xs);
      }
    }
  }

  lemma CarReports(p: Pool, t: nat, m: Move)
    requires Reported(p)
    requires t < |p.threads| && p.threads[t].Car?
    requires Next(p, t, m).Some?
    ensures Reported(Next(p, t, m).value)
  {
    assert Next(p, t, m) == CarStep(p, t, m);
    var r := Next(p, t, m).value;
    var c := p.threads[t];
    assert Witnessed(c, p.events);
    match c.carPhase
    case Arriving =>
      if m == Advance {
        CausalAppend(p.events, Arrives(c.id));
        ReportedFrame(p, r, t, [Arrives(c.id)]);
      } else {
        CausalAppend(p.events, CarFaultNotice(c));
        ReportedFrame(p, r, t, [CarFaultNotice(c)]);
      }
    case WaitingSlot =>
      if m == Advance {
        ReportedFrame(p, r, t, []);
      } else {
        CausalAppend(p.events, CarInterruptNotice(c));
        ReportedFrame(p, r, t, [CarInterruptNotice(c)]);
      }
    case Locking =>
      if m == Advance {
        ReportedFrame(p, r, t, []);
      } else {
        CausalAppend(p.events, CarInterruptNotice(c));
        ReportedFrame(p, r, t, [CarInterruptNotice(c)]);
      }
    case Enqueuing =>
      if m == Advance {
        CausalAppend(p.events, EntersQueue(c.id));
        ReportedFrame(p, r, t, [EntersQueue(c.id)]);
      } else {
        CausalAppend(p.events, CarFaultNotice(c));
        ReportedFrame(p, r, t, [CarFaultNotice(c)]);
      }
    case Entered =>
      ReportedFrame(p, r, t, []);
    case Signalling =>
      ReportedFrame(p, r, t, []);
  }

  lemma PumpReportsEarly(p: Pool, t: nat, m: Move)
    requires Reported(p)
    requires t < |p.threads| && p.threads[t].Pump?
    requires p.threads[t].pumpPhase in {Idle, Claiming, Checking}
    requires Next(p, t, m).Some?
    ensures Reported(Next(p, t, m).value)
  {
    assert Next(p, t, m) == PumpStep(p, t, m);
    var r := Next(p, t, m).value;
    var q := p.threads[t];
    CausalAppend(p.events, PumpInterruptNotice(q));
    CausalAppendOther(p.events, PumpFaultNotices(q));
    match q.pumpPhase
    case Idle =>
      if m == Advance || m == Quit {
        ReportedFrame(p, r, t, []);
      } else {
        ReportedFrame(p, r, t, [PumpInterruptNotice(q)]);
      }
    case Claiming =>
      if m == Advance {
        ReportedFrame(p, r, t, []);
      } else {
        ReportedFrame(p, r, t, [PumpInterruptNotice(q)]);
      }
    case Checking =>
      if m == Advance && |p.queue| == 0 {
        ReportedFrame(p, r, t, []);
      } else if m == Advance {
        CausalAppend(p.events, Login(q.id, p.queue[0]));
        ReportedFrame(p, r, t, [Login(q.id, p.queue[0])]);
      } else {
        ReportedFrame(p, r, t, PumpFaultNotices(q));
      }
  }

  lemma PumpReportsLate(p: Pool, t: nat, m: Move)
    requires Reported(p)
    requires t < |p.threads| && p.threads[t].Pump?
    requires !(p.threads[t].pumpPhase in {Idle, Claiming, Checking})
    requires Next(p, t, m).Some?
    ensures Reported(Next(p, t, m).value)
  {
    assert Next(p, t, m) == PumpStep(p, t, m);
    var r := Next(p, t, m).value;
    var q := p.threads[t];
    assert Witnessed(q, p.events);
    CausalAppend(p.events, PumpInterruptNotice(q));
    CausalAppendOther(p.events, PumpFaultNotices(q));
    match q.pumpPhase
    case LoggedIn(_) =>
      ReportedFrame(p, r, t, []);
    case WaitingBay(_) =>
      if m == Advance {
        ReportedFrame(p, r, t, []);
      } else {
        ReportedFrame(p, r, t, [PumpInterruptNotice(q)]);
      }
    case Bayed(c) =>
      if m == Advance {
        CausalAppend(p.events, BeginsService(q.id, c));
        ReportedFrame(p, r, t, [BeginsService(q.id, c)]);
      } else {
        ReportedFrame(p, r, t, PumpFaultNotices(q));
      }
    case Servicing(c) =>
      if m == Advance {
        CausalAppend(p.events, FinishesService(q.id, c));
        if q.pumpVariant != ObservedPump {
          CausalAppend(p.events + [FinishesService(q.id, c)], BayFree(q.id));
          assert p.events + FinishNotices(q, c) == p.events + [FinishesService(q.id, c)] + [BayFree(q.id)];
        }
        ReportedFrame(p, r, t, FinishNotices(q, c));
      } else if m == Interrupt {
        ReportedFrame(p, r, t, [PumpInterruptNotice(q)]);
      } else {
        ReportedFrame(p, r, t, PumpFaultNotices(q));
      }
    case Serviced(_) =>
      ReportedFrame(p, r, t, []);
    case Freeing(_) =>
      ReportedFrame(p, r, t, []);
  }

  lemma ReportStep(p: Pool, t: nat, m: Move)
    requires Reported(p)
    requires Next(p, t, m).Some?
    ensures Reported(Next(p, t, m).value)
  {
    StepFrame(p, t, m);
    if p.threads[t].Car? {
      CarReports(p, t, m);
    } else if p.threads[t].pumpPhase in {Idle, Claiming, Checking} {
      PumpReportsEarly(p, t, m);
    } else {
      PumpReportsLate(p, t, m);
    }
  }
}

=== FILE: ordering.dfy ===
/** FIFO order, exactly-once removal and the order of notices. */
module Ordering {
  import opened Results
  import opened Sequences
  import opened Events
  import opened Threads
  import opened Protocol

  /** How one step may change the queue. */
  datatype QueueChange = Unchanged | Appended(car: nat) | Removed(car: nat)

  /** `r` follows from `p` by a step of thread `t` that changes the queue as `ch` says: cars
      only append their own id at the tail, pumps only remove the head, and the EntersQueue
      and Login notices name exactly the car appended or removed. */
  ghost predicate QueueEffect(p: Pool, r: Pool, t: nat, ch: QueueChange)
    requires t < |p.threads| && t < |r.threads|
  {
    var a, b := p.threads[t], r.threads[t];
    match ch
    case Unchanged =>
      && r.queue == p.queue && r.enqueued == p.enqueued && r.dequeued == p.dequeued
      && LoginCars(r.events) == LoginCars(p.events) && EnteredCars(r.events) == EnteredCars(p.events)
      && (a.Car? ==> b.Car? && CarAppended(b.carPhase) == CarAppended(a.carPhase))
      && (a.Pump? ==> b.Pump? && (PumpCar(b.pumpPhase) == PumpCar(a.pumpPhase) || PumpCar(b.pumpPhase).None?))
    case Appended(c) =>
      && a.Car? && b.Car? && c == a.id
      && !CarAppended(a.carPhase) && CarAppended(b.carPhase)
      && r.queue == p.queue + [c] && r.enqueued == p.enqueued + [c] && r.dequeued == p.dequeued
      && LoginCars(r.events) == LoginCars(p.events)
      && (EnteredCars(r.events) == EnteredCars(p.events) + [c] || EnteredCars(r.events) == EnteredCars(p.events))
    case Removed(c) =>
      && a.Pump? && b.Pump? && |p.queue| > 0 && c == p.queue[0]
      && PumpCar(a.pumpPhase).None? && PumpCar(b.pumpPhase) == Some(c)
      && r.queue == p.queue[1..] && r.dequeued == p.dequeued + [c] && r.enqueued == p.enqueued
      && EnteredCars(r.events) == EnteredCars(p.events)
      && (LoginCars(r.events) == LoginCars(p.events) + [c] || LoginCars(r.events) == LoginCars(p.events))
  }

  lemma CarEnqueues(p: Pool, t: nat, m: Move)
    requires t < |p.threads| && p.threads[t].Car? && p.threads[t].carPhase == Enqueuing
    requires Next(p, t, m).Some?
    ensures t < |Next(p, t, m).value.threads|
    ensures QueueEffect(p, Next(p, t, m).value, t, Appended(p.threads[t].id))
  {
    assert Next(p, t, m) == CarStep(p, t, m);
    var c := p.threads[t];
    GoneHoldsSame(Entered);
    LogAppend(p.events, EntersQueue(c.id));
    LogAppend(p.events, CarFaultNotice(c));
  }

  lemma CarKeepsQueue(p: Pool, t: nat, m: Move)
    requires t < |p.threads| && p.threads[t].Car? && p.threads[t].carPhase != Enqueuing
    requires Next(p, t, m).Some?
    ensures t < |Next(p, t, m).value.threads|
    ensures QueueEffect(p, Next(p, t, m).value, t, Unchanged)
  {
    assert Next(p, t, m) == CarStep(p, t, m);
    var c := p.threads[t];
    match c.carPhase
    case Arriving =>
      GoneHoldsSame(Arriving);
      if m == Advance {
        LogAppend(p.events, Arrives(c.id));
      } else {
        LogAppend(p.events, CarFaultNotice(c));
      }
    case WaitingSlot =>
      GoneHoldsSame(WaitingSlot);
      LogAppend(p.events, CarInterruptNotice(c));
    case Locking =>
      GoneHoldsSame(Locking);
      LogAppend(p.events, CarInterruptNotice(c));
    case Entered =>
    case Signalling =>
  }

  lemma PumpDequeues(p: Pool, t: nat, m: Move)
    requires t < |p.threads| && p.threads[t].Pump? && p.threads[t].pumpPhase == Checking && |p.queue| > 0
    requires Next(p, t, m).Some?
    ensures t < |Next(p, t, m).value.threads|
    ensures QueueEffect(p, Next(p, t, m).value, t, Removed(p.queue[0]))
  {
    assert Next(p, t, m) == PumpStep(p, t, m);
    var q := p.threads[t];
    DownHoldsSame(LoggedIn(p.queue[0]));
    if m == Advance {
      LogAppend(p.events, Login(q.id, p.queue[0]));
    } else {
      FaultNoticesQuiet(p.events, q);
    }
  }

  lemma PumpKeepsQueue(p: Pool, t: nat, m: Move)
    requires t < |p.threads| && p.threads[t].Pump?
    requires p.threads[t].pumpPhase == Checking ==> |p.queue| == 0
    requires Next(p, t, m).Some?
    ensures t < |Next(p, t, m).value.threads|
    ensures QueueEffect(p, Next(p, t, m).value, t, Unchanged)
  {
    var ph := p.threads[t].pumpPhase;
    if ph.Bayed? || ph.Servicing? || ph.Serviced? || ph.Freeing? {
      PumpKeepsQueueLate(p, t, m);
    } else {
      PumpKeepsQueueEarly(p, t, m);
    }
  }

  lemma PumpKeepsQueueEarly(p: Pool, t: nat, m: Move)
    requires t < |p.threads| && p.threads[t].Pump?
    requires !(p.threads[t].pumpPhase.Bayed? || p.threads[t].pumpPhase.Servicing?)
    requires !(p.threads[t].pumpPhase.Serviced? || p.threads[t].pumpPhase.Freeing?)
    requires p.threads[t].pumpPhase == Checking ==> |p.queue| == 0
    requires Next(p, t, m).Some?
    ensures t < |Next(p, t, m).value.threads|
    ensures QueueEffect(p, Next(p, t, m).value, t, Unchanged)
  {
    assert Next(p, t, m) == PumpStep(p, t, m);
    var q := p.threads[t];
    match q.pumpPhase
    case Idle =>
      DownHoldsSame(Idle);
      if m == Interrupt {
        LogAppend(p.events, PumpInterruptNotice(q));
      }
    case Claiming =>
      DownHoldsSame(Claiming);
      if m == Interrupt {
        LogAppend(p.events, PumpInterruptNotice(q));
      }
    case Checking =>
    case LoggedIn(_) =>
    case WaitingBay(car) =>
      DownHoldsSame(WaitingBay(car));
      if m == Interrupt {
        LogAppend(p.events, PumpInterruptNotice(q));
      }
  }

  lemma PumpKeepsQueueLate(p: Pool, t: nat, m: Move)
    requires t < |p.threads| && p.threads[t].Pump?
    requires p.threads[t].pumpPhase.Bayed? || p.threads[t].pumpPhase.Servicing?
          || p.threads[t].pumpPhase.Serviced? || p.threads[t].pumpPhase.Freeing?
    requires Next(p, t, m).Some?
    ensures t < |Next(p, t, m).value.threads|
    ensures QueueEffect(p, Next(p, t, m).value, t, Unchanged)
  {
    assert Next(p, t, m) == PumpStep(p, t, m);
    var q := p.threads[t];
    match q.pumpPhase
    case Bayed(car) =>
      DownHoldsSame(Bayed(car));
      if m == Advance {
        LogAppend(p.events, BeginsService(q.id, car));
      } else {
        FaultNoticesQuiet(p.events, q);
      }
    case Servicing(car) =>
      DownHoldsSame(Servicing(car));
      if m == Advance {
        FinishNoticesQuiet(p.events, q, car);
      } else if m == Interrupt {
        LogAppend(p.events, PumpInterruptNotice(q));
      } else {
        FaultNoticesQuiet(p.events, q);
      }
    case Serviced(_) =>
    case Freeing(_) =>
  }

  lemma FaultNoticesQuiet(es: seq<Event>, q: Thread)
    requires q.Pump?
    ensures LoginCars(es + PumpFaultNotices(q)) == LoginCars(es)
    ensures EnteredCars(es + PumpFaultNotices(q)) == EnteredCars(es)
  {
    QuietLog(PumpFaultNotices(q));
    LogConcat(es, PumpFaultNotices(q));
  }

  lemma FinishNoticesQuiet(es: seq<Event>, q: Thread, car: nat)
    requires q.Pump?
    ensures LoginCars(es + FinishNotices(q, car)) == LoginCars(es)
    ensures EnteredCars(es + FinishNotices(q, car)) == EnteredCars(es)
  {
    QuietLog(FinishNotices(q, car));
    LogConcat(es, FinishNotices(q, car));
  }

  lemma StepQueue(p: Pool, t: nat, m: Move) returns (ch: QueueChange)
    requires Next(p, t, m).Some?
    ensures t < |p.threads| && t < |Next(p, t, m).value.threads|
    ensures QueueEffect(p, Next(p, t, m).value, t, ch)
  {
    StepFrame(p, t, m);
    var a := p.threads[t];
    if a.Car? && a.carPhase == Enqueuing {
      CarEnqueues(p, t, m);
      ch := Appended(a.id);
    } else if a.Car? {
      CarKeepsQueue(p, t, m);
      ch := Unchanged;
    } else if a.pumpPhase == Checking && |p.queue| > 0 {
      PumpDequeues(p, t, m);
      ch := Removed(p.queue[0]);
    } else {
      PumpKeepsQueue(p, t, m);
      ch := Unchanged;
    }
  }

  /** The queue is what was appended and not yet removed, in order; nothing is appended twice;
      EntersQueue and Login notices follow the order of appends and removals. */
  ghost predicate Fifo(p: Pool) {
    && p.enqueued == p.dequeued + p.queue
    && Distinct(p.enqueued)
    && IsSubsequence(EnteredCars(p.events), p.enqueued)
    && IsSubsequence(LoginCars(p.events), p.dequeued)
  }

  /** A car that has not appended yet does not occur among the appended tags. */
  ghost predicate CarFresh(th: Thread, enqueued: seq<nat>) {
    th.Car? && !CarAppended(th.carPhase) ==> th.id !in enqueued
  }

  /** A car held by a pump was removed from the queue. */
  ghost predicate HeldRemoved(th: Thread, dequeued: seq<nat>) {
    HeldCar(th).Some? ==> HeldCar(th).value in dequeued
  }

  /** Car ids are unique, and no two pumps hold the same car. */
  ghost predicate Owned(p: Pool) {
    && (forall i, j :: 0 <= i < j < |p.threads| && p.threads[i].Car? && p.threads[j].Car? ==>
          p.threads[i].id != p.threads[j].id)
    && (forall i :: 0 <= i < |p.threads| ==> CarFresh(p.threads[i], p.enqueued))
    && (forall i :: 0 <= i < |p.threads| ==> HeldRemoved(p.threads[i], p.dequeued))
    && (forall i, j :: 0 <= i < j < |p.threads| && HeldCar(p.threads[i]).Some? ==>
          HeldCar(p.threads[i]) != HeldCar(p.threads[j]))
  }

  /** `r` differs from `p` only in thread `t`'s program counter. */
  ghost predicate OnlyMoves(p: Pool, r: Pool, t: nat) {
    && t < |p.threads|
    && |r.threads| == |p.threads|
    && r.threads == p.threads[t := r.threads[t]]
    && Retains(p.threads[t], r.threads[t])
  }

  lemma OrderUnchanged(p: Pool, r: Pool, t: nat)
    requires Fifo(p) && Owned(p) && OnlyMoves(p, r, t)
    requires QueueEffect(p, r, t, Unchanged)
    ensures Fifo(r) && Owned(r)
  {
    assert forall k :: 0 <= k < |p.threads| && k != t ==> r.threads[k] == p.threads[k];
    assert HeldCar(r.threads[t]) == HeldCar(p.threads[t]) || HeldCar(r.threads[t]).None?;
  }

  lemma OrderAppended(p: Pool, r: Pool, t: nat, c: nat)
    requires Fifo(p) && Owned(p) && OnlyMoves(p, r, t)
    requires QueueEffect(p, r, t, Appended(c))
    ensures Fifo(r) && Owned(r)
  {
    var a := p.threads[t];
    assert forall k :: 0 <= k < |p.threads| && k != t ==> r.threads[k] == p.threads[k];
    assert CarFresh(a, p.enqueued);
    DistinctAppend(p.enqueued, c);
    assert r.enqueued == r.dequeued + r.queue;
    if EnteredCars(r.events) == EnteredCars(p.events) + [c] {
      SubsequenceExtendBoth(EnteredCars(p.events), p.enqueued, c);
    } else {
      SubsequenceExtendRight(EnteredCars(p.events), p.enqueued, c);
    }
    forall k | 0 <= k < |r.threads|
      ensures CarFresh(r.threads[k], r.enqueued)
    {
      if k != t && r.threads[k].Car? {
        assert p.threads[k].id != a.id by {
          if k < t {
            assert p.threads[k].id != p.threads[t].id;
          } else {
            assert p.threads[t].id != p.threads[k].id;
          }
        }
      }
    }
    assert HeldCar(a).None? && HeldCar(r.threads[t]).None?;
  }

  lemma OrderRemoved(p: Pool, r: Pool, t: nat, c: nat)
    requires Fifo(p) && Owned(p) && OnlyMoves(p, r, t)
    requires QueueEffect(p, r, t, Removed(c))
    ensures Fifo(r) && Owned(r)
  {
    assert forall k :: 0 <= k < |p.threads| && k != t ==> r.threads[k] == p.threads[k];
    assert p.queue == [c] + p.queue[1..];
    assert r.enqueued == r.dequeued + r.queue;
    DistinctPrefix(p.dequeued, p.queue);
    assert c !in p.dequeued;
    if LoginCars(r.events) == LoginCars(p.events) + [c] {
      SubsequenceExtendBoth(LoginCars(p.events), p.dequeued, c);
    } else {
      SubsequenceExtendRight(LoginCars(p.events), p.dequeued, c);
    }
    forall k | 0 <= k < |r.threads| && k != t
      ensures HeldCar(r.threads[k]) != Some(c)
    {
      assert HeldRemoved(p.threads[k], p.dequeued);
    }
  }

  lemma OrderStep(p: Pool, t: nat, m: Move)
    requires Fifo(p) && Owned(p)
    requires Next(p, t, m).Some?
    ensures Fifo(Next(p, t, m).value) && Owned(Next(p, t, m).value)
  {
    StepFrame(p, t, m);
    var r := Next(p, t, m).value;
    var ch := StepQueue(p, t, m);
    match ch
    case Unchanged => OrderUnchanged(p, r, t);
    case Appended(c) => OrderAppended(p, r, t, c);
    case Removed(c) => OrderRemoved(p, r, t, c);
  }
}

=== FILE: protocol.dfy ===
/** The Car/Pump hand-off over the shared queue and the four semaphores, as a transition
    system: every acquire, every release and every mutex-protected section is one atomic step
    of one thread, and the scheduler may pick any enabled step. */
module Protocol {

  import opened Results
  import opened Events
  import opened Threads

  /** The state the cars and pumps share. `enqueued` and `dequeued` record every tag ever
      appended to and removed from `queue`, in order; they exist only in the model. */
  datatype Pool = Pool(
    queue: seq<nat>,
    mutex: nat,
    empty: nat,
    full: nat,
    pumps: nat,
    threads: seq<Thread>,
    events: seq<Event>,
    enqueued: seq<nat>,
    dequeued: seq<nat>)

  /** The queue and permits as the station creates them, for a waiting area of `capacity`
      slots and `bays` pumps. */
  function InitPool(capacity: nat, bays: nat): Pool {
    Pool([], 1, capacity, 0, bays, [], [], [], [])
  }

  /** What the chosen thread does: its next ordinary step, take an InterruptedException at a
      blocking call, take any other exception at a notification, or leave the cws pump loop
      because `isInterrupted()` is true at its top. */
  datatype Move = Advance | Interrupt | Fault | Quit

  // ---- notices, per variant ------------------------------------------------------------------

  function CarInterruptNotice(c: Thread): Event
    requires c.Car?
  {
    match c.carVariant
    case ObservedCar => CarInterrupted(c.id)
    case ConsoleCar => StackTrace
  }

  function CarFaultNotice(c: Thread): Event
    requires c.Car?
  {
    match c.carVariant
    case ObservedCar => CarError(c.id)
    case ConsoleCar => StackTrace
  }

  function PumpInterruptNotice(q: Thread): Event
    requires q.Pump?
  {
    match q.pumpVariant
    case ObservedPump => PumpShuttingDown(q.id)
    case ConsolePump => StackTrace
    case GuiPump => PumpShuttingDown(q.id)
  }

  /** Only the console pump catches exceptions other than InterruptedException; in the other
      two an exception leaves run() without reaching an observer. */
  function PumpFaultNotices(q: Thread): seq<Event>
    requires q.Pump?
  {
    match q.pumpVariant
    case ConsolePump => [StackTrace]
    case _ => []
  }

  /** The console and gui pumps also announce the freed bay after the finish message. */
  function FinishNotices(q: Thread, car: nat): seq<Event>
    requires q.Pump?
  {
    match q.pumpVariant
    case ObservedPump => [FinishesService(q.id, car)]
    case _ => [FinishesService(q.id, car), BayFree(q.id)]
  }

  // ---- steps ---------------------------------------------------------------------------------

  function SetCar(p: Pool, t: nat, ph: CarPhase): seq<Thread>
    requires t < |p.threads| && p.threads[t].Car?
  {
    p.threads[t := p.threads[t].(carPhase := ph)]
  }

  function SetPump(p: Pool, t: nat, ph: PumpPhase): seq<Thread>
    requires t < |p.threads| && p.threads[t].Pump?
  {
    p.threads[t := p.threads[t].(pumpPhase := ph)]
  }

  /** One step of Car.run(). */
  function CarStep(p: Pool, t: nat, m: Move): Option<Pool>
    requires t < |p.threads| && p.threads[t].Car?
  {
    var c := p.threads[t];
    match c.carPhase
    case Arriving =>
      if m == Advance then
        Some(p.(threads := SetCar(p, t, WaitingSlot), events := p.events + [Arrives(c.id)]))
      else if m == Fault then
        Some(p.(threads := SetCar(p, t, Gone(Arriving)), events := p.events + [CarFaultNotice(c)]))
      else None
    case WaitingSlot =>
      if m == Advance && p.empty > 0 then
        Some(p.(empty := p.empty - 1, threads := SetCar(p, t, Locking)))
      else if m == Interrupt && c.interrupted then
        Some(p.(threads := SetCar(p, t, Gone(WaitingSlot)), events := p.events + [CarInterruptNotice(c)]))
      else None
    case Locking =>
      if m == Advance && p.mutex > 0 then
        Some(p.(mutex := p.mutex - 1, threads := SetCar(p, t, Enqueuing)))
      else if m == Interrupt && c.interrupted then
        Some(p.(threads := SetCar(p, t, Gone(Locking)), events := p.events + [CarInterruptNotice(c)]))
      else None
    case Enqueuing =>
      if m == Advance then
        Some(p.(queue := p.queue + [c.id], enqueued := p.enqueued + [c.id],
                threads := SetCar(p, t, Entered), events := p.events + [EntersQueue(c.id)]))
      else if m == Fault then
        // the entersQueue notification throws after the tag is already in the queue
        Some(p.(queue := p.queue + [c.id], enqueued := p.enqueued + [c.id],
                threads := SetCar(p, t, Gone(Entered)), events := p.events + [CarFaultNotice(c)]))
      else None
    case Entered =>
      if m == Advance then Some(p.(mutex := p.mutex + 1, threads := SetCar(p, t, Signalling))) else None
    case Signalling =>
      if m == Advance then Some(p.(full := p.full + 1, threads := SetCar(p, t, Done))) else None
    case Done => None
    case Gone(_) => None
  }

  /** One step of Pump.run(). */
  function PumpStep(p: Pool, t: nat, m: Move): Option<Pool>
    requires t < |p.threads| && p.threads[t].Pump?
  {
    var q := p.threads[t];
    match q.pumpPhase
    case Idle =>
      if m == Advance && p.full > 0 then
        Some(p.(full := p.full - 1, threads := SetPump(p, t, Claiming)))
      else if m == Interrupt && q.interrupted then
        Some(p.(threads := SetPump(p, t, Down(Idle)), events := p.events + [PumpInterruptNotice(q)]))
      else if m == Quit && q.interrupted && q.pumpVariant == ObservedPump then
        Some(p.(threads := SetPump(p, t, Down(Idle))))
      else None
    case Claiming =>
      if m == Advance && p.mutex > 0 then
        Some(p.(mutex := p.mutex - 1, threads := SetPump(p, t, Checking)))
      else if m == Interrupt && q.interrupted then
        Some(p.(threads := SetPump(p, t, Down(Claiming)), events := p.events + [PumpInterruptNotice(q)]))
      else None
    case Checking =>
      if m == Advance && |p.queue| == 0 then
        // the signal consumed has no tag left for it: give the mutex back and start a new pass
        Some(p.(mutex := p.mutex + 1, threads := SetPump(p, t, Idle)))
      else if m == Advance then
        Some(p.(queue := p.queue[1..], dequeued := p.dequeued + [p.queue[0]],
                threads := SetPump(p, t, LoggedIn(p.queue[0])), events := p.events + [Login(q.id, p.queue[0])]))
      else if m == Fault && |p.queue| > 0 then
        // the login notification throws after the head is already removed
        Some(p.(queue := p.queue[1..], dequeued := p.dequeued + [p.queue[0]],
                threads := SetPump(p, t, Down(LoggedIn(p.queue[0]))), events := p.events + PumpFaultNotices(q)))
      else None
    case LoggedIn(car) =>
      if m == Advance then Some(p.(mutex := p.mutex + 1, threads := SetPump(p, t, WaitingBay(car)))) else None
    case WaitingBay(car) =>
      if m == Advance && p.pumps > 0 then
        Some(p.(pumps := p.pumps - 1, threads := SetPump(p, t, Bayed(car))))
      else if m == Interrupt && q.interrupted then
        Some(p.(threads := SetPump(p, t, Down(WaitingBay(car))), events := p.events + [PumpInterruptNotice(q)]))
      else None
    case Bayed(car) =>
      if m == Advance then
        Some(p.(threads := SetPump(p, t, Servicing(car)), events := p.events + [BeginsService(q.id, car)]))
      else if m == Fault then
        Some(p.(threads := SetPump(p, t, Down(Bayed(car))), events := p.events + PumpFaultNotices(q)))
      else None
    case Servicing(car) =>
      // Thread.sleep throws at once when the interrupt flag is set
      if m == Advance && !q.interrupted then
        Some(p.(threads := SetPump(p, t, Serviced(car)), events := p.events + FinishNotices(q, car)))
      else if m == Interrupt && q.interrupted then
        Some(p.(threads := SetPump(p, t, Down(Servicing(car))), events := p.events + [PumpInterruptNotice(q)]))
      else if m == Fault then
        Some(p.(threads := SetPump(p, t, Down(Servicing(car))), events := p.events + PumpFaultNotices(q)))
      else None
    case Serviced(car) =>
      if m == Advance then Some(p.(pumps := p.pumps + 1, threads := SetPump(p, t, Freeing(car)))) else None
    case Freeing(car) =>
      if m == Advance then Some(p.(empty := p.empty + 1, threads := SetPump(p, t, Idle))) else None
    case Down(_) => None
  }

  /** Thread `t` takes move `m`; None when that move is not enabled. */
  function Next(p: Pool, t: nat, m: Move): Option<Pool> {
    if t >= |p.threads| then None
    else if p.threads[t].Car? then CarStep(p, t, m)
    else PumpStep(p, t, m)
  }

  /** Same kind, id, variant and interrupt flag: a step only moves a thread's program counter. */
  predicate Retains(a: Thread, b: Thread) {
    && a.Car? == b.Car?
    && a.id == b.id
    && a.interrupted == b.interrupted
    && (a.Car? ==> a.carVariant == b.carVariant)
    && (a.Pump? ==> a.pumpVariant == b.pumpVariant)
  }

  /** A step changes only the stepping thread's phase and only appends to the log. */
  lemma StepFrame(p: Pool, t: nat, m: Move)
    requires Next(p, t, m).Some?
    ensures t < |p.threads|
    ensures var r := Next(p, t, m).value;
      && |r.threads| == |p.threads|
      && r.threads == p.threads[t := r.threads[t]]
      && Retains(p.threads[t], r.threads[t])
      && p.events <= r.events
  {
  }
}

=== FILE: results.dfy ===
/** Failure-carrying result types used across the model. */
module Results {

  /** A value that may be absent: a step that is not enabled yields None. */
  datatype Option<+T> = None | Some(value: T)

  /** The outcome of an operation that may throw: Ok carries the value, Err the reason. */
  datatype Result<+T, +E> = Ok(value: T) | Err(error: E)
}

=== FILE: sequences.dfy ===
/** Facts about sequences that the queue and the event log rely on. */
module Sequences {

  /** No element occurs twice. */
  predicate Distinct<T(==)>(s: seq<T>) {
    forall i, j :: 0 <= i < j < |s| ==> s[i] != s[j]
  }

  /** The elements of `a` occur in `b` in the same order, possibly with gaps.
      Matching is done greedily from the back. */
  predicate IsSubsequence<T(==)>(a: seq<T>, b: seq<T>)
    decreases |b|
  {
    if |a| == 0 then true
    else if |b| == 0 then false
    else if a[|a| - 1] == b[|b| - 1] then IsSubsequence(a[..|a| - 1], b[..|b| - 1])
    else IsSubsequence(a, b[..|b| - 1])
  }

  lemma DistinctAppend<T>(s: seq<T>, x: T)
    requires Distinct(s) && x !in s
    ensures Distinct(s + [x])
  {
  }

  lemma DistinctPrefix<T>(s: seq<T>, t: seq<T>)
    requires Distinct(s + t)
    ensures Distinct(s) && Distinct(t)
    ensures forall x :: x in s ==> x !in t
  {
    forall x | x in s
      ensures x !in t
    {
      var i :| 0 <= i < |s| && s[i] == x;
      forall j | 0 <= j < |t|
        ensures t[j] != x
      {
        assert (s + t)[i] == s[i] && (s + t)[|s| + j] == t[j];
      }
    }
    forall i, j | 0 <= i < j < |s|
      ensures s[i] != s[j]
    {
      assert (s + t)[i] == s[i] && (s + t)[j] == s[j];
    }
    forall i, j | 0 <= i < j < |t|
      ensures t[i] != t[j]
    {
      assert (s + t)[|s| + i] == t[i] && (s + t)[|s| + j] == t[j];
    }
  }

  /** Appending the same element to both sides keeps the order relation. */
  lemma {:induction false} SubsequenceExtendBoth<T>(a: seq<T>, b: seq<T>, x: T)
    requires IsSubsequence(a, b)
    ensures IsSubsequence(a + [x], b + [x])
  {
    assert (a + [x])[..|a|] == a;
    assert (b + [x])[..|b|] == b;
  }

  /** Growing the larger sequence keeps the order relation. */
  lemma {:induction false} SubsequenceExtendRight<T>(a: seq<T>, b: seq<T>, x: T)
    requires IsSubsequence(a, b)
    ensures IsSubsequence(a, b + [x])
    decreases |b|, 1
  {
    assert (b + [x])[..|b|] == b;
    if |a| > 0 && a[|a| - 1] == x {
      SubsequenceDropLast(a, b);
    }
  }

  /** Dropping the last element of the smaller sequence keeps the order relation. */
  lemma {:induction false} SubsequenceDropLast<T>(a: seq<T>, b: seq<T>)
    requires |a| > 0 && IsSubsequence(a, b)
    ensures IsSubsequence(a[..|a| - 1], b)
    decreases |b|, 0
  {
    var b' := b[..|b| - 1];
    assert b == b' + [b[|b| - 1]];
    if a[|a| - 1] == b[|b| - 1] {
      SubsequenceExtendRight(a[..|a| - 1], b', b[|b| - 1]);
    } else {
      SubsequenceDropLast(a, b');
      SubsequenceExtendRight(a[..|a| - 1], b', b[|b| - 1]);
    }
  }

  /** Every element of a subsequence occurs in the larger sequence. */
  lemma {:induction false} SubsequenceMembers<T>(a: seq<T>, b: seq<T>)
    requires IsSubsequence(a, b)
    ensures forall x :: x in a ==> x in b
    decreases |b|
  {
    if |a| > 0 {
      var b' := b[..|b| - 1];
      assert b == b' + [b[|b| - 1]];
      if a[|a| - 1] == b[|b| - 1] {
        var a' := a[..|a| - 1];
        assert a == a' + [a[|a| - 1]];
        SubsequenceMembers(a', b');
      } else {
        SubsequenceMembers(a, b');
      }
    }
  }

  /** A subsequence of a sequence without repetitions has no repetitions. */
  lemma {:induction false} SubsequenceDistinct<T>(a: seq<T>, b: seq<T>)
    requires IsSubsequence(a, b) && Distinct(b)
    ensures Distinct(a)
    decreases |b|
  {
    if |a| > 0 {
      var b' := b[..|b| - 1];
      assert b == b' + [b[|b| - 1]];
      DistinctPrefix(b', [b[|b| - 1]]);
      if a[|a| - 1] == b[|b| - 1] {
        var a' := a[..|a| - 1];
        assert a == a' + [a[|a| - 1]];
        SubsequenceDistinct(a', b');
        SubsequenceMembers(a', b');
        DistinctAppend(a', a[|a| - 1]);
      } else {
        SubsequenceDistinct(a, b');
      }
    }
  }
}

=== FILE: shutdown.dfy ===
/** After stopSimulation() sets a thread's interrupt flag, that thread can always move, it can
    reach the end of run() within `Rank` of its own steps, and whatever the scheduler and the
    other threads do it cannot take more than `Budget` of its own steps before it ends: the
    precondition for joining it. */
module Shutdown {
  import opened Results
  import opened Threads
  import opened Protocol
  import opened Invariant

  /** How many of its own steps a flagged car needs to finish, taking the shortest way out. */
  function CarRank(ph: CarPhase): nat {
    match ph
    case Arriving => 2
    case WaitingSlot => 1
    case Locking => 1
    case Enqueuing => 3
    case Entered => 2
    case Signalling => 1
    case Done => 0
    case Gone(_) => 0
  }

  /** How many of its own steps a flagged pump needs to finish, taking the shortest way out. */
  function PumpRank(ph: PumpPhase): nat {
    match ph
    case Idle => 1
    case Claiming => 1
    case Checking => 3
    case LoggedIn(_) => 2
    case WaitingBay(_) => 1
    case Bayed(_) => 2
    case Servicing(_) => 1
    case Serviced(_) => 3
    case Freeing(_) => 2
    case Down(_) => 0
  }

  function Rank(th: Thread): (r: nat)
    ensures r == 0 <==> !Live(th)
  {
    match th
    case Car(_, _, ph, _) => CarRank(ph)
    case Pump(_, _, ph, _) => PumpRank(ph)
  }

  /** A live flagged thread always has an enabled move, and that move brings it closer to the
      end of run(): none of its remaining blocking calls can block it. */
  lemma ShutdownProgress(p: Pool, t: nat) returns (m: Move)
    requires t < |p.threads| && Live(p.threads[t]) && p.threads[t].interrupted
    ensures Next(p, t, m).Some?
    ensures Rank(Next(p, t, m).value.threads[t]) < Rank(p.threads[t])
  {
    var th := p.threads[t];
    if th.Car? {
      match th.carPhase
      case Arriving => m := Advance;
      case WaitingSlot => m := Interrupt;
      case Locking => m := Interrupt;
      case Enqueuing => m := Advance;
      case Entered => m := Advance;
      case Signalling => m := Advance;
    } else {
      match th.pumpPhase
      case Idle => m := Interrupt;
      case Claiming => m := Interrupt;
      case Checking => m := Advance;
      case LoggedIn(_) => m := Advance;
      case WaitingBay(_) => m := Interrupt;
      case Bayed(_) => m := Advance;
      case Servicing(_) => m := Interrupt;
      case Serviced(_) => m := Advance;
      case Freeing(_) => m := Advance;
    }
  }

  /** A flagged thread can finish within `Rank` steps of its own, from any pool: one schedule
      of its own moves that ends it. */
  lemma {:induction false} ShutdownTerminates(p: Pool, t: nat) returns (schedule: seq<Choice>)
    requires t < |p.threads| && p.threads[t].interrupted
    ensures |schedule| <= Rank(p.threads[t])
    ensures forall i :: 0 <= i < |schedule| ==> schedule[i].thread == t
    ensures Run(p, schedule).Some?
    ensures var r := Run(p, schedule).value; t < |r.threads| && !Live(r.threads[t])
    decreases Rank(p.threads[t])
  {
    if !Live(p.threads[t]) {
      schedule := [];
    } else {
      var m := ShutdownProgress(p, t);
      var p' := Next(p, t, m).value;
      StepFrame(p, t, m);
      var rest := ShutdownTerminates(p', t);
      schedule := [Choice(t, m)] + rest;
      assert schedule[1..] == rest;
    }
  }

  /** The most own steps a flagged car can still take: its remaining steps are a straight line. */
  function CarBudget(ph: CarPhase): nat {
    match ph
    case Arriving => 6
    case WaitingSlot => 5
    case Locking => 4
    case Enqueuing => 3
    case Entered => 2
    case Signalling => 1
    case Done => 0
    case Gone(_) => 0
  }

  /** The most own steps a flagged pump can still take. A bay it holds is returned, then the
      waiting place, and the loop may start one more pass; that pass ends at the latest in the
      service sleep, which throws once the flag is set. */
  function PumpBudget(ph: PumpPhase): nat {
    match ph
    case Serviced(_) => 9
    case Freeing(_) => 8
    case Idle => 7
    case Claiming => 6
    case Checking => 5
    case LoggedIn(_) => 4
    case WaitingBay(_) => 3
    case Bayed(_) => 2
    case Servicing(_) => 1
    case Down(_) => 0
  }

  function Budget(th: Thread): (r: nat)
    ensures r == 0 <==> !Live(th)
    ensures Rank(th) <= r
  {
    match th
    case Car(_, _, ph, _) => CarBudget(ph)
    case Pump(_, _, ph, _) => PumpBudget(ph)
  }

  /** Every move a flagged thread can take lowers its budget. The pump's retry branch, the only
      step that goes back up, is unreachable under the invariant. */
  lemma FlaggedStepLowersBudget(p: Pool, capacity: nat, bays: nat, t: nat, m: Move)
    requires Inv(p, capacity, bays)
    requires t < |p.threads| && p.threads[t].interrupted
    requires Next(p, t, m).Some?
    ensures Budget(Next(p, t, m).value.threads[t]) < Budget(p.threads[t])
  {
    var th := p.threads[t];
    if th.Car? {
      assert Next(p, t, m) == CarStep(p, t, m);
    } else {
      assert Next(p, t, m) == PumpStep(p, t, m);
      if th.pumpPhase == Checking {
        RetryUnreachable(p, capacity, bays, t);
      }
    }
  }

  /** How many of the schedule's choices are moves of thread `t`. */
  function Own(schedule: seq<Choice>, t: nat): (n: nat)
    ensures n <= |schedule|
  {
    if |schedule| == 0 then 0
    else (if schedule[0].thread == t then 1 else 0) + Own(schedule[1..], t)
  }

  /** Along any schedule from a reachable pool, however the other threads interleave, a flagged
      thread keeps its flag and takes at most `Budget` steps of its own; once it has taken that
      many it has ended. */
  lemma {:induction false} FlaggedStepsBounded(p: Pool, capacity: nat, bays: nat, t: nat, schedule: seq<Choice>)
    requires Inv(p, capacity, bays)
    requires t < |p.threads| && p.threads[t].interrupted
    requires Run(p, schedule).Some?
    ensures var r := Run(p, schedule).value;
      && t < |r.threads| && r.threads[t].interrupted
      && Own(schedule, t) + Budget(r.threads[t]) <= Budget(p.threads[t])
      && (Own(schedule, t) == Budget(p.threads[t]) ==> !Live(r.threads[t]))
    decreases |schedule|
  {
    if |schedule| > 0 {
      var c := schedule[0];
      var p' := Next(p, c.thread, c.move).value;
      StepFrame(p, c.thread, c.move);
      StepInv(p, capacity, bays, c.thread, c.move);
      if c.thread == t {
        FlaggedStepLowersBudget(p, capacity, bays, t, c.move);
      } else {
        assert p'.threads[t] == p.threads[t];
      }
      FlaggedStepsBounded(p', capacity, bays, t, schedule[1..]);
    }
  }
}

=== FILE: simulation.dfy ===
/** The station and its threads together: any interleaving of lifecycle calls and thread steps,
    with reset joining its threads. The protocol invariant holds throughout, car numbers stay
    unique, and a reset can always be brought to completion. */
module Simulation {
  import opened Results
  import opened Events
  import opened Threads
  import opened Protocol
  import opened Ordering
  import opened Notices
  import opened Invariant
  import opened Shutdown
  import opened Station

  /** Every thread is on the list `stopSimulation()` walks for its kind, and every car's number
      was handed out by the counter. */
  ghost predicate Registered(s: Station) {
    forall i :: 0 <= i < |s.pool.threads| ==>
      && (s.pool.threads[i].Car? ==> i in s.carsList && 1 <= s.pool.threads[i].id <= s.carCounter)
      && (s.pool.threads[i].Pump? ==> i in s.pumpsList)
  }

  /** Every tag ever appended names a car already numbered. */
  ghost predicate Numbered(s: Station) {
    forall k :: 0 <= k < |s.pool.enqueued| ==> s.pool.enqueued[k] <= s.carCounter
  }

  /** While stopped, every thread has been interrupted. */
  ghost predicate Stopping(s: Station) {
    !s.running ==> forall i :: 0 <= i < |s.pool.threads| ==> s.pool.threads[i].interrupted
  }

  ghost predicate StationInv(s: Station) {
    && s.numPumps > 0
    && Inv(s.pool, s.waitingAreaSize, s.numPumps)
    && Registered(s)
    && Numbered(s)
    && Stopping(s)
  }

  /** A call on the station, or one step of one of its threads. */
  datatype Action = StartCall | AddCarCall | StopCall | ResetCall | Step(thread: nat, move: Move)

  /** The effect of one action; None when it is not enabled (a blocked thread, or a reset
      whose join is still waiting). */
  function Apply(s: Station, a: Action): Option<Station> {
    match a
    case StartCall => Some(StartSimulation(s))
    case AddCarCall => Some(AddCar(s))
    case StopCall => Some(StopSimulation(s))
    case ResetCall => ResetJoined(s)
    case Step(t, m) =>
      match Next(s.pool, t, m)
      case None => None
      case Some(p) => Some(s.(pool := p))
  }

  function Perform(s: Station, actions: seq<Action>): Option<Station>
    decreases |actions|
  {
    if |actions| == 0 then Some(s)
    else match Apply(s, actions[0])
      case None => None
      case Some(s') => Perform(s', actions[1..])
  }

  // ---- the invariant across the lifecycle ----------------------------------------------------

  lemma CreateInv(waitingAreaSize: int, numPumps: int)
    requires Create(waitingAreaSize, numPumps, true).Ok?
    ensures StationInv(Create(waitingAreaSize, numPumps, true).value)
  {
    InitInv(waitingAreaSize as nat, numPumps as nat);
  }

  lemma {:induction false} SpawnInv(s: Station, capacity: nat, bays: nat, k: nat)
    requires Inv(s.pool, capacity, bays)
    ensures Inv(Spawn(s, k).pool, capacity, bays)
  {
    if k > 0 {
      SpawnInv(s, capacity, bays, k - 1);
      JoinIdle(Spawn(s, k - 1).pool, capacity, bays, NewPump(k));
    }
  }

  lemma StartInv(s: Station)
    requires StationInv(s)
    ensures StationInv(StartSimulation(s))
  {
    if !s.running {
      var s0 := s.(running := true, log := s.log + [Started(s.pool.empty, s.numPumps)]);
      SpawnInv(s0, s.waitingAreaSize, s.numPumps, s.numPumps);
      var r := StartSimulation(s);
      var n := |s.pool.threads|;
      forall i | 0 <= i < |r.pool.threads|
        ensures r.pool.threads[i].Pump? ==> i in r.pumpsList
        ensures r.pool.threads[i].Car? ==> i in r.carsList && 1 <= r.pool.threads[i].id <= r.carCounter
      {
        if i < n {
          assert r.pool.threads[i] == r.pool.threads[..n][i] == s.pool.threads[i];
          if s.pool.threads[i].Pump? {
            var k :| 0 <= k < |s.pumpsList| && s.pumpsList[k] == i;
            assert r.pumpsList[k] == r.pumpsList[..|s.pumpsList|][k];
          }
        } else {
          assert r.pumpsList[|s.pumpsList| + (i - n)] == i;
        }
      }
    }
  }

  lemma AddCarInv(s: Station)
    requires StationInv(s)
    ensures StationInv(AddCar(s))
  {
    if s.running {
      var u := Car(s.carCounter + 1, ObservedCar, Arriving, false);
      JoinIdle(s.pool, s.waitingAreaSize, s.numPumps, u);
      var r := AddCar(s);
      forall i | 0 <= i < |r.pool.threads| && r.pool.threads[i].Car?
        ensures i in r.carsList
      {
        if i < |s.pool.threads| {
          assert r.pool.threads[i] == s.pool.threads[i];
        } else {
          assert r.carsList[|s.carsList|] == i;
        }
      }
    }
  }

  lemma StopInv(s: Station)
    requires StationInv(s)
    ensures StationInv(StopSimulation(s))
  {
    if s.running {
      var r := StopSimulation(s);
      ReflagInv(s.pool, s.waitingAreaSize, s.numPumps, r.pool.threads);
    }
  }

  lemma ResetInv(s: Station)
    requires StationInv(s)
    requires ResetJoined(s).Some?
    ensures StationInv(ResetJoined(s).value)
  {
    InitInv(s.waitingAreaSize, s.numPumps);
  }

  lemma StepStationInv(s: Station, t: nat, m: Move)
    requires StationInv(s)
    requires Next(s.pool, t, m).Some?
    ensures StationInv(s.(pool := Next(s.pool, t, m).value))
  {
    var p := Next(s.pool, t, m).value;
    StepInv(s.pool, s.waitingAreaSize, s.numPumps, t, m);
    StepFrame(s.pool, t, m);
    var ch := StepQueue(s.pool, t, m);
    var r := s.(pool := p);
    assert Registered(r) by {
      forall i | 0 <= i < |p.threads|
        ensures p.threads[i].Car? == s.pool.threads[i].Car? && p.threads[i].id == s.pool.threads[i].id
      {
        if i == t {
          assert Retains(s.pool.threads[t], p.threads[t]);
        }
      }
    }
  }

  lemma ApplyInv(s: Station, a: Action)
    requires StationInv(s)
    ensures Apply(s, a).Some? ==> StationInv(Apply(s, a).value)
  {
    if Apply(s, a).None? {
      return;
    }
    match a
    case StartCall => StartInv(s);
    case AddCarCall => AddCarInv(s);
    case StopCall => StopInv(s);
    case ResetCall => ResetInv(s);
    case Step(t, m) => StepStationInv(s, t, m);
  }

  /** Whatever the user clicks and however the threads interleave, the station invariant holds. */
  lemma {:induction false} PerformInv(s: Station, actions: seq<Action>)
    requires StationInv(s)
    requires Perform(s, actions).Some?
    ensures StationInv(Perform(s, actions).value)
    decreases |actions|
  {
    if |actions| > 0 {
      ApplyInv(s, actions[0]);
      PerformInv(Apply(s, actions[0]).value, actions[1..]);
    }
  }

  // ---- what the station reports --------------------------------------------------------------

  /** getTotalWaiting() never exceeds the cars actually queued, nor the queue the waiting area.
      getWaitingAreaSize() never exceeds the configured size, and equals it exactly when no car
      or pump holds a waiting permit outside the queue: it is the "total capacity" only then. */
  lemma Counters(s: Station)
    requires StationInv(s)
    ensures TotalWaiting(s) <= |s.pool.queue| <= s.waitingAreaSize
    ensures WaitingAreaSize(s) <= s.waitingAreaSize
    ensures WaitingAreaSize(s) == s.waitingAreaSize <==>
      forall i :: 0 <= i < |s.pool.threads| ==> SlotOf(s.pool.threads[i]) == 0 && SignalOf(s.pool.threads[i]) == 0
  {
    QueueBounded(s.pool, s.waitingAreaSize, s.numPumps);
    WaitingAreaGap(s.pool, s.waitingAreaSize, s.numPumps);
  }

  /** The capacity startSimulation() announces is the waiting area minus the queued cars and
      the slots held outside the queue: the configured size only when nothing is waiting. */
  lemma StartAnnouncement(s: Station)
    requires StationInv(s) && !s.running
    ensures StartSimulation(s).log == s.log + [Started(s.pool.empty, s.numPumps)]
    ensures s.pool.empty + |s.pool.queue| + Sum(s.pool.threads, SlotOf) == s.waitingAreaSize
    ensures s.pool.empty == s.waitingAreaSize <==> |s.pool.queue| == 0 && Sum(s.pool.threads, SlotOf) == 0
  {
  }

  /** The car addCar() creates has a number, and so a tag, that no car of the station has had:
      numbers strictly increase. */
  lemma AddCarFresh(s: Station)
    requires StationInv(s) && s.running
    ensures var r := AddCar(s); var id := r.carCounter;
      && r.pool.threads[|s.pool.threads|] == Car(id, ObservedCar, Arriving, false)
      && (forall i :: 0 <= i < |s.pool.threads| && s.pool.threads[i].Car? ==>
            s.pool.threads[i].id < id && CarTag(s.pool.threads[i].id) != CarTag(id))
  {
    var id := AddCar(s).carCounter;
    forall i | 0 <= i < |s.pool.threads| && s.pool.threads[i].Car?
      ensures CarTag(s.pool.threads[i].id) != CarTag(id)
    {
      CarTagInjective(s.pool.threads[i].id, id);
    }
  }

  /** No two cars of the station carry the same tag. */
  lemma TagsUnique(s: Station, i: nat, j: nat)
    requires StationInv(s)
    requires i < j < |s.pool.threads| && s.pool.threads[i].Car? && s.pool.threads[j].Car?
    ensures CarTag(s.pool.threads[i].id) != CarTag(s.pool.threads[j].id)
  {
    CarTagInjective(s.pool.threads[i].id, s.pool.threads[j].id);
  }

  // ---- a joined reset always completes ---------------------------------------------------------

  lemma {:induction false} RunConcat(p: Pool, a: seq<Choice>, b: seq<Choice>)
    requires Run(p, a).Some?
    ensures Run(p, a + b) == Run(Run(p, a).value, b)
    decreases |a|
  {
    if |a| > 0 {
      assert (a + b)[0] == a[0] && (a + b)[1..] == a[1..] + b;
      RunConcat(Next(p, a[0].thread, a[0].move).value, a[1..], b);
    } else {
      assert a + b == b;
    }
  }

  /** Only a live thread can step. */
  lemma StepNeedsLive(p: Pool, t: nat, m: Move)
    requires Next(p, t, m).Some?
    ensures t < |p.threads| && Live(p.threads[t])
  {
    if p.threads[t].Car? {
      assert Next(p, t, m) == CarStep(p, t, m);
    } else {
      assert Next(p, t, m) == PumpStep(p, t, m);
    }
  }

  /** A schedule keeps every interrupt flag, and leaves ended threads as they are. */
  lemma {:induction false} RunKeeps(p: Pool, schedule: seq<Choice>)
    requires Run(p, schedule).Some?
    ensures var r := Run(p, schedule).value;
      && |r.threads| == |p.threads|
      && forall j :: 0 <= j < |p.threads| ==>
           && r.threads[j].interrupted == p.threads[j].interrupted
           && (!Live(p.threads[j]) ==> r.threads[j] == p.threads[j])
    decreases |schedule|
  {
    if |schedule| > 0 {
      var c := schedule[0];
      StepFrame(p, c.thread, c.move);
      StepNeedsLive(p, c.thread, c.move);
      RunKeeps(Next(p, c.thread, c.move).value, schedule[1..]);
    }
  }

  /** Once every thread is interrupted, the threads 0..k-1 can all be driven to the end of run(). */
  lemma {:induction false} ShutdownAll(p: Pool, k: nat) returns (schedule: seq<Choice>)
    requires k <= |p.threads|
    requires forall j :: 0 <= j < |p.threads| ==> p.threads[j].interrupted
    ensures Run(p, schedule).Some?
    ensures var r := Run(p, schedule).value;
      |r.threads| == |p.threads| && forall j :: 0 <= j < k ==> !Live(r.threads[j])
  {
    if k == 0 {
      schedule := [];
    } else {
      var first := ShutdownAll(p, k - 1);
      var q := Run(p, first).value;
      RunKeeps(p, first);
      var last := ShutdownTerminates(q, k - 1);
      RunKeeps(q, last);
      RunConcat(p, first, last);
      schedule := first + last;
    }
  }

  /** The thread steps of a schedule, as actions. */
  function Steps(schedule: seq<Choice>): (r: seq<Action>)
    ensures |r| == |schedule|
    ensures forall i :: 0 <= i < |r| ==> r[i] == Step(schedule[i].thread, schedule[i].move)
  {
    if |schedule| == 0 then [] else [Step(schedule[0].thread, schedule[0].move)] + Steps(schedule[1..])
  }

  lemma {:induction false} PerformSteps(s: Station, schedule: seq<Choice>)
    requires Run(s.pool, schedule).Some?
    ensures Perform(s, Steps(schedule)) == Some(s.(pool := Run(s.pool, schedule).value))
    decreases |schedule|
  {
    if |schedule| > 0 {
      var c := schedule[0];
      assert Steps(schedule)[1..] == Steps(schedule[1..]);
      PerformSteps(s.(pool := Next(s.pool, c.thread, c.move).value), schedule[1..]);
    }
  }

  lemma {:induction false} PerformConcat(s: Station, a: seq<Action>, b: seq<Action>)
    requires Perform(s, a).Some?
    ensures Perform(s, a + b) == Perform(Perform(s, a).value, b)
    decreases |a|
  {
    if |a| > 0 {
      assert (a + b)[0] == a[0] && (a + b)[1..] == a[1..] + b;
      PerformConcat(Apply(s, a[0]).value, a[1..], b);
    } else {
      assert a + b == b;
    }
  }

  /** `actions` stop the station, let its threads finish and reset it, starting nothing and
      adding no car, and end in the station the constructor builds. */
  ghost predicate Restores(s: Station, actions: seq<Action>) {
    && (forall k :: 0 <= k < |actions| ==> actions[k] != StartCall && actions[k] != AddCarCall)
    && Perform(s, actions).Some?
    && var r := Perform(s, actions).value;
      && !r.running && r.carCounter == 0 && r.pumpsList == [] && r.carsList == []
      && r.numPumps == s.numPumps && r.pool == InitPool(s.waitingAreaSize, s.numPumps)
  }

  /** From any reachable station, stopping (if running), letting the interrupted threads run to
      their end, and resetting succeeds, and leaves the station as the constructor built it:
      the join in a joined reset can always be satisfied. */
  lemma ResetCompletes(s: Station)
    requires StationInv(s)
    ensures exists actions :: Restores(s, actions)
  {
    var actions := RestoringRun(s);
  }

  lemma RestoringRun(s: Station) returns (actions: seq<Action>)
    requires StationInv(s)
    ensures Restores(s, actions)
  {
    var s1 := if s.running then StopSimulation(s) else s;
    var pre := if s.running then [StopCall] else [];
    StopInv(s);
    assert Perform(s, pre) == Some(s1);
    var schedule := ShutdownAll(s1.pool, |s1.pool.threads|);
    var s2 := s1.(pool := Run(s1.pool, schedule).value);
    PerformSteps(s1, schedule);
    PerformConcat(s, pre, Steps(schedule));
    assert ResetJoined(s2).Some?;
    assert Perform(s2, [ResetCall]) == ResetJoined(s2);
    PerformConcat(s, pre + Steps(schedule), [ResetCall]);
    actions := pre + Steps(schedule) + [ResetCall];
  }
}

=== FILE: station.dfy ===
/** The lifecycle of simulator/cws/ServiceStation.java: construction, start, add-car, stop,
    reset, and the two counters it reads off the semaphores. The cars and pumps it starts are
    threads of the protocol pool; their own steps are `Protocol.Next`. */
module Station {
  import opened Results
  import opened Events
  import opened Threads
  import opened Protocol

  /** Why the constructor throws IllegalArgumentException. */
  datatype ConfigError = NegativeWaitingArea | NoPumps | NoCallback

  function ErrorText(e: ConfigError): string {
    match e
    case NegativeWaitingArea => "waitingAreaSize must be >= 0"
    case NoPumps => "numPumps must be > 0"
    case NoCallback => "logCallback must not be null"
  }

  /** What the station itself passes to its log callback. */
  datatype Message =
    | AlreadyRunning                       // "Simulation already running."
    | Started(capacity: nat, pumps: nat)   // "Simulation started: Waiting area capacity <c>, Pumps = <n>"
    | PleaseStart                          // "Please start the simulation first!"
    | CarArrived(car: nat)                 // "C<id> arrived"
    | NotRunning                           // "Simulation is not running."
    | Stopped                              // "Simulation stopped."

  function MessageText(m: Message): string {
    match m
    case AlreadyRunning => "Simulation already running."
    case Started(c, n) => "Simulation started: Waiting area capacity " + Decimal(c) + ", Pumps = " + Decimal(n)
    case PleaseStart => "Please start the simulation first!"
    case CarArrived(id) => CarTag(id) + " arrived"
    case NotRunning => "Simulation is not running."
    case Stopped => "Simulation stopped."
  }

  /** The station object. `pumpsList` and `carsList` hold the positions, in `pool.threads`, of
      the threads the lists refer to; `earlier` keeps the notices of runs before a joined reset. */
  datatype Station = Station(
    waitingAreaSize: nat,
    numPumps: nat,
    carCounter: nat,
    running: bool,
    pumpsList: seq<nat>,
    carsList: seq<nat>,
    pool: Pool,
    log: seq<Message>,
    earlier: seq<Event>)

  /** `new ServiceStation(waitingAreaSize, numPumps, logCallback)`; `hasCallback` says whether
      the callback is non-null. The arguments are checked in the constructor's order. */
  function Create(waitingAreaSize: int, numPumps: int, hasCallback: bool): (r: Result<Station, ConfigError>)
    ensures r.Ok? <==> waitingAreaSize >= 0 && numPumps > 0 && hasCallback
    ensures waitingAreaSize < 0 ==> r == Err(NegativeWaitingArea)
    ensures waitingAreaSize >= 0 && numPumps <= 0 ==> r == Err(NoPumps)
    ensures waitingAreaSize >= 0 && numPumps > 0 && !hasCallback ==> r == Err(NoCallback)
    ensures r.Ok? ==> var s := r.value;
      && s.waitingAreaSize == waitingAreaSize && s.numPumps == numPumps
      && s.carCounter == 0 && !s.running && s.pumpsList == [] && s.carsList == []
      && s.pool.queue == [] && s.pool.threads == []
      && s.pool.mutex == 1 && s.pool.empty == waitingAreaSize && s.pool.full == 0 && s.pool.pumps == numPumps
  {
    if waitingAreaSize < 0 then Err(NegativeWaitingArea)
    else if numPumps <= 0 then Err(NoPumps)
    else if !hasCallback then Err(NoCallback)
    else Ok(Station(waitingAreaSize, numPumps, 0, false, [], [], InitPool(waitingAreaSize, numPumps), [], []))
  }

  /** The pump the start loop creates on iteration `i`. */
  function NewPump(i: nat): Thread {
    Pump(i, ObservedPump, Idle, false)
  }

  /** Iterations 1..k of the start loop: create pump i, add it to the list, start it. */
  function Spawn(s: Station, k: nat): (r: Station)
    ensures |r.pool.threads| == |s.pool.threads| + k
    ensures r.pool.threads[..|s.pool.threads|] == s.pool.threads
    ensures forall j :: |s.pool.threads| <= j < |r.pool.threads| ==>
      r.pool.threads[j] == NewPump(j - |s.pool.threads| + 1)
    ensures |r.pumpsList| == |s.pumpsList| + k
    ensures r.pumpsList[..|s.pumpsList|] == s.pumpsList
    ensures forall j :: |s.pumpsList| <= j < |r.pumpsList| ==>
      r.pumpsList[j] == |s.pool.threads| + (j - |s.pumpsList|)
    ensures r == s.(pool := s.pool.(threads := r.pool.threads), pumpsList := r.pumpsList)
  {
    if k == 0 then s
    else
      var s' := Spawn(s, k - 1);
      s'.(pool := s'.pool.(threads := s'.pool.threads + [NewPump(k)]),
          pumpsList := s'.pumpsList + [|s'.pool.threads|])
  }

  /** startSimulation(): a no-op apart from its message while running; otherwise marks the
      station running, reports the available waiting permits, and starts pumps 1..numPumps. */
  function StartSimulation(s: Station): (r: Station)
    ensures s.running ==> r == s.(log := s.log + [AlreadyRunning])
    ensures !s.running ==>
      && r.running
      && r.log == s.log + [Started(s.pool.empty, s.numPumps)]
      && |r.pool.threads| == |s.pool.threads| + s.numPumps
      && r.pool.threads[..|s.pool.threads|] == s.pool.threads
      && (forall j :: |s.pool.threads| <= j < |r.pool.threads| ==>
            r.pool.threads[j] == NewPump(j - |s.pool.threads| + 1))
      && |r.pumpsList| == |s.pumpsList| + s.numPumps
      && r.pumpsList[..|s.pumpsList|] == s.pumpsList
      && (forall j :: |s.pumpsList| <= j < |r.pumpsList| ==>
            r.pumpsList[j] == |s.pool.threads| + (j - |s.pumpsList|))
      && r.pool == s.pool.(threads := r.pool.threads)
      && r.carCounter == s.carCounter && r.carsList == s.carsList && r.numPumps == s.numPumps
      && r == s.(running := true, log := r.log, pool := r.pool, pumpsList := r.pumpsList)
  {
    if s.running then s.(log := s.log + [AlreadyRunning])
    else Spawn(s.(running := true, log := s.log + [Started(s.pool.empty, s.numPumps)]), s.numPumps)
  }

  /** addCar(): a no-op apart from its message unless running; otherwise the next number from
      the counter becomes a new car, which is announced, listed and started. */
  function AddCar(s: Station): (r: Station)
    ensures !s.running ==> r == s.(log := s.log + [PleaseStart])
    ensures s.running ==>
      && r.carCounter == s.carCounter + 1
      && r.pool.threads == s.pool.threads + [Car(r.carCounter, ObservedCar, Arriving, false)]
      && r.carsList == s.carsList + [|s.pool.threads|]
      && r.log == s.log + [CarArrived(r.carCounter)]
      && r.pool == s.pool.(threads := r.pool.threads)
      && r == s.(carCounter := r.carCounter, pool := r.pool, carsList := r.carsList, log := r.log)
  {
    if !s.running then s.(log := s.log + [PleaseStart])
    else
      var id := s.carCounter + 1;
      s.(carCounter := id,
         pool := s.pool.(threads := s.pool.threads + [Car(id, ObservedCar, Arriving, false)]),
         carsList := s.carsList + [|s.pool.threads|],
         log := s.log + [CarArrived(id)])
  }

  /** `interrupt()` on every listed thread; positions outside the pool name no thread. */
  function InterruptAll(ts: seq<Thread>, listed: seq<nat>): (r: seq<Thread>)
    ensures |r| == |ts|
    ensures forall i :: 0 <= i < |ts| ==>
      r[i] == if i in listed then ts[i].(interrupted := true) else ts[i]
  {
    if |listed| == 0 then ts
    else
      var rest := InterruptAll(ts, listed[..|listed| - 1]);
      var k := listed[|listed| - 1];
      assert listed == listed[..|listed| - 1] + [k];
      if k < |rest| then rest[k := rest[k].(interrupted := true)] else rest
  }

  /** stopSimulation(): a no-op apart from its message unless running; otherwise clears the
      flag and interrupts every listed car and pump, leaving the queue and permits alone. */
  function StopSimulation(s: Station): (r: Station)
    ensures !s.running ==> r == s.(log := s.log + [NotRunning])
    ensures s.running ==>
      && !r.running
      && r.log == s.log + [Stopped]
      && |r.pool.threads| == |s.pool.threads|
      && (forall i :: 0 <= i < |s.pool.threads| ==>
            r.pool.threads[i] == if i in s.carsList || i in s.pumpsList
                                 then s.pool.threads[i].(interrupted := true) else s.pool.threads[i])
      && r.pool == s.pool.(threads := r.pool.threads)
      && r == s.(running := false, pool := r.pool, log := r.log)
  {
    if !s.running then s.(log := s.log + [NotRunning])
    else
      var ts := InterruptAll(InterruptAll(s.pool.threads, s.carsList), s.pumpsList);
      s.(running := false, pool := s.pool.(threads := ts), log := s.log + [Stopped])
  }

  /** reset() as written: stop, then clear the queue, overwrite the four permit counts, clear
      both lists and zero `numPumps`, without waiting for any thread. The threads keep running
      against the new counts; `carCounter` is kept. */
  function Reset(s: Station): (r: Station)
    ensures !r.running
    ensures r.pool.queue == [] && r.pumpsList == [] && r.carsList == []
    ensures r.pool.mutex == 1 && r.pool.empty == s.waitingAreaSize && r.pool.full == 0
    ensures r.pool.pumps == s.numPumps && r.numPumps == 0
    ensures r.carCounter == s.carCounter && r.waitingAreaSize == s.waitingAreaSize
    ensures r.pool.threads == StopSimulation(s).pool.threads
  {
    var st := StopSimulation(s);
    st.(pool := st.pool.(queue := [], mutex := 1, empty := s.waitingAreaSize, full := 0,
                         pumps := st.numPumps, enqueued := [], dequeued := []),
        pumpsList := [], carsList := [], numPumps := 0)
  }

  predicate AllEnded(ts: seq<Thread>) {
    forall i :: 0 <= i < |ts| ==> !Live(ts[i])
  }

  /** reset() as evidently intended: stop, join every thread, then restore the station as the
      constructor left it, for the same waiting area and number of pumps. The join completes
      only once every thread has ended, so the result is None while some thread still runs.
      The waiting itself is not a station state: a call that would block is refused as a
      whole, the stop it began included, so a running station with live threads reaches a
      completed reset by a separate stop, the threads' own steps, and then this call. */
  function ResetJoined(s: Station): (r: Option<Station>)
    ensures r.Some? <==> AllEnded(s.pool.threads)
    ensures r.Some? ==> var t := r.value;
      && !t.running && t.carCounter == 0 && t.pumpsList == [] && t.carsList == []
      && t.numPumps == s.numPumps && t.waitingAreaSize == s.waitingAreaSize
      && t.pool == InitPool(s.waitingAreaSize, s.numPumps)
      && t.log == StopSimulation(s).log
      && t.earlier == s.earlier + s.pool.events
  {
    var st := StopSimulation(s);
    if !AllEnded(st.pool.threads) then
      assert !AllEnded(s.pool.threads);
      None
    else
      Some(st.(pool := InitPool(s.waitingAreaSize, s.numPumps), pumpsList := [], carsList := [],
               carCounter := 0, earlier := s.earlier + s.pool.events))
  }

  /** getWaitingAreaSize(): the available plus the signalled waiting permits. */
  function WaitingAreaSize(s: Station): nat {
    s.pool.empty + s.pool.full
  }

  /** getTotalWaiting(): the signalled waiting permits. */
  function TotalWaiting(s: Station): nat {
    s.pool.full
  }
}

=== FILE: steps.dfy ===
/** What one step of one thread does to the shared permits: where each release happens and what
    an exception leaves behind. */
module Steps {
  import opened Results
  import opened Events
  import opened Threads
  import opened Protocol

  /** Each permit count rises only at its own release: `empty` when a pump returns the waiting
      slot after the bay, `pumps` when a pump returns the bay after service, `full` when a car
      signals after its append, `mutex` when its holder leaves the critical section. */
  lemma ReleaseSites(p: Pool, t: nat, m: Move)
    requires Next(p, t, m).Some?
    ensures t < |p.threads| && t < |Next(p, t, m).value.threads|
    ensures var r, a := Next(p, t, m).value, p.threads[t];
      && (r.empty > p.empty ==> a.Pump? && a.pumpPhase.Freeing? && m == Advance)
      && (r.pumps > p.pumps ==> a.Pump? && a.pumpPhase.Serviced? && m == Advance)
      && (r.full > p.full ==> a.Car? && a.carPhase == Signalling && m == Advance)
      && (r.mutex > p.mutex ==> MutexOf(a) == 1 && MutexOf(r.threads[t]) == 0 && Live(r.threads[t]))
  {
    StepFrame(p, t, m);
    var r, a := Next(p, t, m).value, p.threads[t];
    if a.Car? {
      assert Next(p, t, m) == CarStep(p, t, m);
      match a.carPhase
      case Arriving =>
      case WaitingSlot =>
      case Locking =>
      case Enqueuing =>
      case Entered =>
      case Signalling =>
    } else {
      assert Next(p, t, m) == PumpStep(p, t, m);
      match a.pumpPhase
      case Idle =>
      case Claiming =>
      case Checking =>
      case LoggedIn(_) =>
      case WaitingBay(_) =>
      case Bayed(_) =>
      case Servicing(_) =>
      case Serviced(_) =>
      case Freeing(_) =>
    }
  }

  /** An InterruptedException ends the thread where it blocked: it logs its shutdown notice and
      keeps every permit it held, returning none of them and touching neither the queue nor the
      available permits. */
  lemma InterruptKeepsHoldings(p: Pool, t: nat)
    requires Next(p, t, Interrupt).Some?
    ensures t < |p.threads| && t < |Next(p, t, Interrupt).value.threads|
    ensures var r, a := Next(p, t, Interrupt).value, p.threads[t];
      var b := r.threads[t];
      && a.interrupted && Live(a) && !Live(b)
      && r.queue == p.queue
      && r.mutex == p.mutex && r.empty == p.empty && r.full == p.full && r.pumps == p.pumps
      && MutexOf(b) == MutexOf(a) && BayOf(b) == BayOf(a) && SlotOf(b) == SlotOf(a) && SignalOf(b) == SignalOf(a)
      && r.events == p.events + [if a.Car? then CarInterruptNotice(a) else PumpInterruptNotice(a)]
  {
    StepFrame(p, t, Interrupt);
    var a := p.threads[t];
    if a.Car? {
      assert Next(p, t, Interrupt) == CarStep(p, t, Interrupt);
      match a.carPhase
      case WaitingSlot => GoneHoldsSame(WaitingSlot);
      case Locking => GoneHoldsSame(Locking);
    } else {
      assert Next(p, t, Interrupt) == PumpStep(p, t, Interrupt);
      match a.pumpPhase
      case Idle => DownHoldsSame(Idle);
      case Claiming => DownHoldsSame(Claiming);
      case WaitingBay(c) => DownHoldsSame(WaitingBay(c));
      case Servicing(c) => DownHoldsSame(Servicing(c));
    }
  }

  /** Any other exception also ends the thread for good and returns no permit. */
  lemma FaultReturnsNothing(p: Pool, t: nat)
    requires Next(p, t, Fault).Some?
    ensures t < |p.threads| && t < |Next(p, t, Fault).value.threads|
    ensures var r := Next(p, t, Fault).value;
      && Live(p.threads[t]) && !Live(r.threads[t])
      && r.mutex == p.mutex && r.empty == p.empty && r.full == p.full && r.pumps == p.pumps
      && r.events == p.events + (if p.threads[t].Car? then [CarFaultNotice(p.threads[t])] else PumpFaultNotices(p.threads[t]))
  {
    StepFrame(p, t, Fault);
    var a := p.threads[t];
    if a.Car? {
      assert Next(p, t, Fault) == CarStep(p, t, Fault);
    } else {
      assert Next(p, t, Fault) == PumpStep(p, t, Fault);
    }
  }

  /** A step only ever appends to the log, and "Bay free" appears only as the notice directly
      after a finish message of the same pump, in the console and gui variants. */
  lemma BayFreeFollowsFinish(p: Pool, t: nat, m: Move)
    requires Next(p, t, m).Some?
    ensures t < |p.threads|
    ensures var r, a := Next(p, t, m).value, p.threads[t];
      && |p.events| <= |r.events| && r.events[..|p.events|] == p.events
      && (forall i :: |p.events| <= i < |r.events| && r.events[i].BayFree? ==>
            && a.Pump? && a.pumpPhase.Servicing? && m == Advance && a.pumpVariant != ObservedPump
            && i == |p.events| + 1 && r.events[i] == BayFree(a.id)
            && r.events[i - 1] == FinishesService(a.id, a.pumpPhase.car))
  {
    StepFrame(p, t, m);
    var r, a := Next(p, t, m).value, p.threads[t];
    if a.Car? {
      assert Next(p, t, m) == CarStep(p, t, m);
      match a.carPhase
      case Arriving =>
      case WaitingSlot =>
      case Locking =>
      case Enqueuing =>
      case Entered =>
      case Signalling =>
    } else {
      assert Next(p, t, m) == PumpStep(p, t, m);
      match a.pumpPhase
      case Idle =>
      case Claiming =>
      case Checking =>
      case LoggedIn(_) =>
      case WaitingBay(_) =>
      case Bayed(_) =>
      case Servicing(_) =>
      case Serviced(_) =>
      case Freeing(_) =>
    }
  }
}

=== FILE: threads.dfy ===
/** The cars and pumps of the station as program counters over their run() methods,
    and which shared resources each one holds at each point. */
module Threads {

  import opened Results

  /** simulator/cws/Car.java reports to observers; src/main/java/Car.java prints. */
  datatype CarVariant = ObservedCar | ConsoleCar

  /** simulator/cws/Pump.java reports to observers and checks the interrupt flag at the top of its
      loop; src/main/java/Pump.java prints; gui/.../Pump.java logs through its controller. */
  datatype PumpVariant = ObservedPump | ConsolePump | GuiPump

  /** Where a car is in its one-shot protocol. */
  datatype CarPhase =
    | Arriving      // started; the arrival notice is next
    | WaitingSlot   // blocked in empty.acquire()
    | Locking       // holds a waiting slot; blocked in mutex.acquire()
    | Enqueuing     // holds the mutex; append and entersQueue notice are next
    | Entered       // appended, still holds the mutex
    | Signalling    // released the mutex; full.release() is next
    | Done          // run() returned normally
    | Gone(at: CarPhase)  // ended by an exception raised in phase `at`, keeping what it held there

  /** Where a pump is in one pass of its service loop. */
  datatype PumpPhase =
    | Idle                   // top of the loop; blocked in full.acquire()
    | Claiming               // consumed a full permit; blocked in mutex.acquire()
    | Checking               // holds the mutex; the empty-check is next
    | LoggedIn(car: nat)     // removed `car` from the head, login sent, still holds the mutex
    | WaitingBay(car: nat)   // released the mutex; blocked in pumps.acquire()
    | Bayed(car: nat)        // holds a bay; the begins-service notice is next
    | Servicing(car: nat)    // begins-service sent; sleeping for the service time
    | Serviced(car: nat)     // finishes-service sent; pumps.release() is next
    | Freeing(car: nat)      // bay returned; empty.release() is next
    | Down(at: PumpPhase)    // ended in phase `at`, keeping what it held there: by an exception,
                             // or (cws pump, at Idle) by leaving its loop on the interrupt flag

  datatype Thread =
    | Car(id: nat, carVariant: CarVariant, carPhase: CarPhase, interrupted: bool)
    | Pump(id: nat, pumpVariant: PumpVariant, pumpPhase: PumpPhase, interrupted: bool)

  // ---- what a car holds --------------------------------------------------------------------

  predicate CarHoldsMutex(p: CarPhase) {
    match p
    case Enqueuing | Entered => true
    case Gone(at) => CarHoldsMutex(at)
    case _ => false
  }

  /** Holds a waiting-area permit that is not yet represented by a queue entry. */
  predicate CarHoldsSlot(p: CarPhase) {
    match p
    case Locking | Enqueuing => true
    case Gone(at) => CarHoldsSlot(at)
    case _ => false
  }

  /** Has appended its tag but not yet released `full`. */
  predicate CarOwesSignal(p: CarPhase) {
    match p
    case Entered | Signalling => true
    case Gone(at) => CarOwesSignal(at)
    case _ => false
  }

  /** Has appended its tag to the queue. */
  predicate CarAppended(p: CarPhase) {
    match p
    case Entered | Signalling | Done => true
    case Gone(at) => CarAppended(at)
    case _ => false
  }

  predicate CarLive(p: CarPhase) {
    !p.Done? && !p.Gone?
  }

  // ---- what a pump holds -------------------------------------------------------------------

  predicate PumpHoldsMutex(p: PumpPhase) {
    match p
    case Checking | LoggedIn(_) => true
    case Down(at) => PumpHoldsMutex(at)
    case _ => false
  }

  /** Has consumed a `full` permit but not yet removed a car for it. */
  predicate PumpHoldsSignal(p: PumpPhase) {
    match p
    case Claiming | Checking => true
    case Down(at) => PumpHoldsSignal(at)
    case _ => false
  }

  predicate PumpHoldsBay(p: PumpPhase) {
    match p
    case Bayed(_) | Servicing(_) | Serviced(_) => true
    case Down(at) => PumpHoldsBay(at)
    case _ => false
  }

  /** The car a pump has removed from the queue and whose waiting slot it has not returned. */
  function PumpCar(p: PumpPhase): (r: Option<nat>)
  {
    match p
    case LoggedIn(c) => Some(c)
    case WaitingBay(c) => Some(c)
    case Bayed(c) => Some(c)
    case Servicing(c) => Some(c)
    case Serviced(c) => Some(c)
    case Freeing(c) => Some(c)
    case Down(at) => PumpCar(at)
    case _ => None
  }

  predicate PumpLive(p: PumpPhase) {
    !p.Down?
  }

  // ---- per-thread counts, summed over the pool ---------------------------------------------

  function Indicator(b: bool): nat {
    if b then 1 else 0
  }

  function MutexOf(t: Thread): nat {
    match t
    case Car(_, _, p, _) => Indicator(CarHoldsMutex(p))
    case Pump(_, _, p, _) => Indicator(PumpHoldsMutex(p))
  }

  function BayOf(t: Thread): nat {
    match t
    case Car(_, _, _, _) => 0
    case Pump(_, _, p, _) => Indicator(PumpHoldsBay(p))
  }

  /** Waiting-area permits held outside the queue: by a car before it appends, or by a pump
      between removing a car and `empty.release()`. */
  function SlotOf(t: Thread): nat {
    match t
    case Car(_, _, p, _) => Indicator(CarHoldsSlot(p))
    case Pump(_, _, p, _) => Indicator(PumpCar(p).Some?)
  }

  /** Queue entries not matched by an available `full` permit: appended by a car that has not
      signalled, or signalled and consumed by a pump that has not removed a car yet. */
  function SignalOf(t: Thread): nat {
    match t
    case Car(_, _, p, _) => Indicator(CarOwesSignal(p))
    case Pump(_, _, p, _) => Indicator(PumpHoldsSignal(p))
  }

  predicate Live(t: Thread) {
    match t
    case Car(_, _, p, _) => CarLive(p)
    case Pump(_, _, p, _) => PumpLive(p)
  }

  /** Total of `f` over the threads. */
  function Sum(ts: seq<Thread>, f: Thread -> nat): nat {
    if |ts| == 0 then 0 else Sum(ts[..|ts| - 1], f) + f(ts[|ts| - 1])
  }

  /** Replacing one thread changes the total by exactly that thread's difference. */
  lemma {:induction false} SumUpdate(ts: seq<Thread>, i: nat, t: Thread, f: Thread -> nat)
    requires i < |ts|
    ensures Sum(ts[i := t], f) + f(ts[i]) == Sum(ts, f) + f(t)
  {
    var n := |ts| - 1;
    if i < n {
      assert ts[i := t][..n] == ts[..n][i := t];
      SumUpdate(ts[..n], i, t, f);
    } else {
      assert ts[i := t][..n] == ts[..n];
    }
  }

  /** The total over a concatenation is the sum of the totals. */
  lemma {:induction false} SumConcat(ts: seq<Thread>, us: seq<Thread>, f: Thread -> nat)
    ensures Sum(ts + us, f) == Sum(ts, f) + Sum(us, f)
    decreases |us|
  {
    if |us| > 0 {
      var n := |us| - 1;
      assert (ts + us)[..|ts| + n] == ts + us[..n];
      SumConcat(ts, us[..n], f);
    } else {
      assert ts + us == ts;
    }
  }

  /** Threads that hold nothing add nothing. */
  lemma {:induction false} SumZero(ts: seq<Thread>, f: Thread -> nat)
    requires forall i :: 0 <= i < |ts| ==> f(ts[i]) == 0
    ensures Sum(ts, f) == 0
  {
    if |ts| > 0 {
      SumZero(ts[..|ts| - 1], f);
    }
  }

  /** Two pools whose threads hold the same things have the same totals. */
  lemma {:induction false} SumCongruent(ts: seq<Thread>, us: seq<Thread>, f: Thread -> nat)
    requires |ts| == |us|
    requires forall i :: 0 <= i < |ts| ==> f(ts[i]) == f(us[i])
    ensures Sum(ts, f) == Sum(us, f)
  {
    if |ts| > 0 {
      SumCongruent(ts[..|ts| - 1], us[..|us| - 1], f);
    }
  }

  /** One thread's share never exceeds the total. */
  lemma {:induction false} SumBound(ts: seq<Thread>, i: nat, f: Thread -> nat)
    requires i < |ts|
    ensures f(ts[i]) <= Sum(ts, f)
  {
    if i < |ts| - 1 {
      SumBound(ts[..|ts| - 1], i, f);
    }
  }

  /** Two distinct threads' shares together never exceed the total. */
  lemma {:induction false} SumPair(ts: seq<Thread>, i: nat, j: nat, f: Thread -> nat)
    requires i < |ts| && j < |ts| && i != j
    ensures f(ts[i]) + f(ts[j]) <= Sum(ts, f)
  {
    var n := |ts| - 1;
    if i == n {
      SumBound(ts[..n], j, f);
    } else if j == n {
      SumBound(ts[..n], i, f);
    } else {
      SumPair(ts[..n], i, j, f);
    }
  }

  /** A positive total has a thread that contributes to it. */
  lemma {:induction false} SumWitness(ts: seq<Thread>, f: Thread -> nat) returns (i: nat)
    requires Sum(ts, f) > 0
    ensures i < |ts| && f(ts[i]) > 0
  {
    if f(ts[|ts| - 1]) > 0 {
      i := |ts| - 1;
    } else {
      i := SumWitness(ts[..|ts| - 1], f);
    }
  }

  /** A pump ended by an exception keeps whatever it held. */
  lemma DownHoldsSame(at: PumpPhase)
    ensures PumpHoldsMutex(Down(at)) == PumpHoldsMutex(at)
    ensures PumpHoldsSignal(Down(at)) == PumpHoldsSignal(at)
    ensures PumpHoldsBay(Down(at)) == PumpHoldsBay(at)
    ensures PumpCar(Down(at)) == PumpCar(at)
  {
  }

  /** A car ended by an exception keeps whatever it held. */
  lemma GoneHoldsSame(at: CarPhase)
    ensures CarHoldsMutex(Gone(at)) == CarHoldsMutex(at)
    ensures CarHoldsSlot(Gone(at)) == CarHoldsSlot(at)
    ensures CarOwesSignal(Gone(at)) == CarOwesSignal(at)
    ensures CarAppended(Gone(at)) == CarAppended(at)
  {
  }

  /** The car a thread has taken out of the queue, if any: only pumps take cars. */
  function HeldCar(t: Thread): Option<nat> {
    if t.Pump? then PumpCar(t.pumpPhase) else None
  }
}
